=== FILE: README.md ===
# Loan/EMI intake form — a Dafny model

This project models the validating core of the loonemi intake tool, a
one-page form that collects a borrower's contact details, bank, optional
student-loan details, loan type, payment mode (with a UPI ID for UPI
payments) and a declaration:

- the `Form` document of `models/forms.js`: the setters that normalise
  `loanAmount`, `loanYear` and `declare`, the `trim`/`lowercase` options,
  every path's rules (required, maxlength, enum, min/max, the phone and UPI
  patterns) and the `pre('validate')` hook that makes the student-loan
  details and the UPI ID conditionally required;
- the `POST /forms` handler of `server.js`: the renaming of the body's keys
  into the document, the loan details dropped unless the answer is "yes",
  the choice of the reported message, the escaping of `"` in the alert and
  the status code;
- the page script `public/emi.js`: `validateForm` as a predicate over the
  field values, the flags the change/input handlers keep, the
  policy-link/checkbox step and the submit guard.

Modules, one per file, in dependency order:

| file | module | contents |
|---|---|---|
| wrappers.dfy | Wrappers | `Option` |
| text.dfy | Text | character classes, `String.prototype.trim` (ECMAScript white space and line terminators), ASCII lower-casing, UTF-16 length |
| numbers.dfy | Numbers | decimal digit strings, `parseInt`/`parseFloat` on well-formed literals |
| jsvalues.dfy | JsValues | the JavaScript values that reach the setters, `parseFloat`/`parseInt` on them |
| patterns.dfy | Patterns | the phone and UPI regular expressions as matchers, each proved equal to a declarative language |
| forms.dfy | Forms | the document, its setters, rules, hook and `Validate` |
| intake.dfy | Intake | the handler |
| client.dfy | Client | the page script |
| agreement.dfy | Agreement | the page script against the server |

Validation returns an ordered sequence of `(path, message)` entries: the
hook's entries first, in the order the hook writes them, then one entry per
failing path in the order the schema declares the paths, carrying the
message of that path's first failing rule. The current year is a
parameter: `yearAtLoad` for the bound the schema fixes when the module is
loaded, `currentYear` for the page. The email pattern is a parameter
`emailOk`. Whether the database takes a valid document is the parameter
`storeAvailable`.

The main model (`Validate`, `Save`, `Respond`, `HandlePost`, `Handle`)
computes what the code computes, including the two defects listed under
"## Findings": the `declare` rule that never fires and the loan-year check
that lets a year of 0 through. The intended behaviour of those two checks is
modelled beside it, as `Forms.ValidateIntended` and `Client.YearFieldValid`,
and is used only by the members that say so.

Two consequences of the code that a reader might not expect are modelled
as written:

- the handler answers every failure its `catch` block catches with status
  400 (server.js:78), a storage failure included; the status-500
  error-handling middleware (server.js:88-96) is not modelled, since the
  handler never passes an error on to it (the one exception that can escape
  the `catch` block is the `Unhandled` reply, see Intake.FailureMessage
  under "## Left out");
- the `match` rule on `upi` (models/forms.js:89-95) applies under every
  payment mode, so a non-empty UPI ID of the wrong shape is rejected even
  when the payment is not by UPI.

## Model

| member | source | states |
|---|---|---|
| Patterns.PhoneMatchSpec | models/forms.js:23-26 | the phone pattern accepts exactly the strings of 10 characters whose first is 6-9 and whose others are ASCII digits |
| Patterns.PhoneFromDigits | models/forms.js:24 | after the first character, the matcher accepts exactly the all-digit strings of the remaining length |
| Patterns.PhoneSpecUnpadded | models/forms.js:24 | an accepted phone has no surrounding whitespace and is its own trim |
| Patterns.UpiMatchSpec | models/forms.js:92-95 | the UPI pattern accepts exactly `local@provider` with a non-empty local part over letters, digits, `.`, `_`, `-` and a non-empty alphanumeric provider |
| Patterns.UpiLocalTail | models/forms.js:93 | once in the local part, the matcher accepts exactly the strings holding an `@` with local characters before it and alphanumerics after |
| Patterns.UpiSingleAt | models/forms.js:93 | an accepted UPI ID contains exactly one `@` |
| Patterns.UpiSpecUnpadded | models/forms.js:93 | an accepted UPI ID has no surrounding whitespace |
| Text.Trim | models/forms.js:7 | trimming returns the slice left after removing whitespace at both ends; only whitespace is removed |
| Text.TrimIdempotent | models/forms.js:7 | trimming twice is trimming once |
| Text.TrimEmptyIffAllSpace | public/emi.js:97 | a value trims to empty exactly when it is all whitespace |
| Text.TrimPadding | public/emi.js:87 | whitespace added at either end does not change the trimmed value |
| Text.AsciiLower | models/forms.js:14 | lower-casing keeps the length, maps each ASCII capital to the letter 32 code points above it, leaves every other character as it is, and leaves no ASCII capital |
| Text.AsciiLowerIdempotent | models/forms.js:14 | lower-casing twice is lower-casing once |
| Numbers.ParseIntText | models/forms.js:70 | the model's `parseInt` on text gives a number exactly for an optionally signed digit string, non-negative without a sign |
| Numbers.IntTextRoundTrip | public/emi.js:132-134 | writing an integer in decimal and parsing it back gives the integer |
| Numbers.ParseDecimal | models/forms.js:62 | the model's `parseFloat` on text agrees with `parseInt` on integer literals and is non-negative without a sign |
| JsValues.ParseFloat | models/forms.js:62 | `parseFloat` of a number is the number, of a string its decimal value or NaN, of anything else NaN |
| JsValues.ParseInt | models/forms.js:70 | `parseInt` gives an integral number or NaN, the integer of a digit string, and leaves integral numbers unchanged |
| Forms.SetLoanAmount | models/forms.js:61-63 | `''` and `undefined` become absent; otherwise the amount is present exactly when `parseFloat` gives a number, and is that number |
| Forms.SetLoanYear | models/forms.js:69-71 | `''` and `undefined` become absent; otherwise the year is present exactly when `parseInt` gives a number, and is that number |
| Forms.SetDeclare | models/forms.js:100-102 | the stored declaration is true exactly for the string "on" and the boolean true |
| Forms.Trimmed | models/forms.js:7 | a trimmed path stays present or absent; its value is the slice of the input after the leading whitespace, everything cut off at either end is whitespace, and the result has none at its ends |
| Forms.TrimmedIdempotent | models/forms.js:7 | setting a trimmed path to its own value changes nothing |
| Forms.LowerTrimmed | models/forms.js:13-14 | the email is, character by character, the lower-cased trimmed input: same length, no surrounding whitespace, no ASCII capital |
| Forms.LowerTrimmedPlain | models/forms.js:13-14 | an email without surrounding whitespace or capitals is stored unchanged |
| Forms.NewKeepsPlainText | models/forms.js:5-14 | a name without surrounding whitespace and an email without surrounding whitespace or capitals are stored as given |
| Forms.New | models/forms.js:3-103 | building the document keeps phone, bank, answer, loan type and payment mode as given; name, address, EMI, loan bank and UPI ID are the trimmed inputs, the email the lower-cased trimmed input, and amount, year and declaration the setters' results |
| Forms.EnumRule | models/forms.js:37-52 | an enum path passes exactly when present and in its list; otherwise the message is the required one for an empty value and the enum one for a wrong value |
| Forms.DeclareRule | models/forms.js:97-103 | the intended declaration rule passes exactly when the terms were accepted |
| Forms.FieldCheckSpec | models/forms.js:3-103 | each path's rules fail exactly when its declarative demand (pattern language, list, bounds, length) is unmet; the `declare` path, as written, never fails |
| Forms.CollectErrorsComplete | models/forms.js:3-103 | running the rules over a list of paths reports a path of the list exactly when its rule fails |
| Forms.CollectErrorsOrdered | models/forms.js:3-103 | the entries come in the order of the paths |
| Forms.SchemaErrors | models/forms.js:3-103 | the schema reports each failing path once, in declaration order, with its failing rule's message, and no path that passes |
| Forms.OrderedDistinct | models/forms.js:3-103 | no two entries of an ordered error list are about the same path |
| Forms.HookErrorsSpec | models/forms.js:109-122 | the hook reports, in the order written, each missing student-loan detail when the answer is "yes" and a missing UPI ID in UPI mode, and nothing else |
| Forms.HookErrorsMessages | models/forms.js:112-119 | every entry of the hook carries the message the hook writes for its path |
| Forms.HookErrorsEmpty | models/forms.js:109-122 | the hook is silent exactly when the conditional demands are met |
| Forms.Validate | models/forms.js:3-122 | the error list is empty exactly when the document is accepted, and mentions a path exactly when the hook or the path's rules reject it |
| Forms.ValidateEntries | models/forms.js:3-122 | the hook's entries come first, unchanged and in the order written; the rest follow schema order; every entry carries its path's failing-rule message or, for a path the hook reports, the hook's message |
| Forms.UpiMissingReportedFirst | models/forms.js:118-120 | paying by UPI without a UPI ID, with no student-loan detail missing, puts the UPI-required entry first |
| Forms.FutureLoanYearReported | models/forms.js:65-68 | on a "yes" document otherwise accepted, a loan year one past the schema's year is the only error, with the future-year message |
| Forms.AcceptedBounds | models/forms.js:37-99 | an accepted document has bank, answer, loan type and payment mode from their lists, a name of 1-100 characters, an address of at most 200, a loan bank of at most 50, a non-negative amount, a year in [2000, yearAtLoad], a phone of the phone shape, a UPI ID of the UPI shape, and the conditional details; the terms need not have been accepted |
| Forms.PaddedPhoneRejected | models/forms.js:20-27 | a phone with surrounding whitespace is always reported, since the phone path is not trimmed |
| Forms.AcceptedUpiSingleAt | models/forms.js:89-95 | an accepted non-empty UPI ID holds exactly one `@` |
| Forms.BadUpiRejected | models/forms.js:89-95 | a non-empty UPI ID of the wrong shape is reported under any payment mode |
| Forms.NoLoanErrorsUnlessYes | models/forms.js:109-115 | without a "yes" and with no loan details, no loan path is reported |
| Forms.HookUpiOnlyInUpiMode | models/forms.js:118-120 | the hook's UPI error appears only in UPI mode, and there exactly when the UPI ID is empty |
| Forms.ZeroLoanAmountMissing | models/forms.js:113 | a loan amount of 0 with a "yes" is reported as missing, right after a missing loan bank |
| Forms.SchemaErrorsIgnoreDeclare | models/forms.js:97-103 | as written, the schema's entries do not depend on the declaration at all |
| Forms.DeclareOffPassesAsWritten | models/forms.js:97-103 | "off" and a missing value both set the declaration to false, validation never reports the `declare` path, and declining the terms leaves the error list unchanged |
| Forms.ValidateIntended | models/forms.js:97-103 | with the intended rule, the error list is empty exactly when the document is accepted and the terms are accepted, and mentions `declare` exactly when they are declined |
| Forms.DeclinedTermsRejected | models/forms.js:97-103 | with the intended rule, a declined declaration is reported as the last entry, and an accepted one gives the same list as the code |
| Intake.MapRequest | server.js:43-58 | the record takes each path from its key (`student-loan` for studentLoan), and takes the loan details, parsed, only when the answer is exactly "yes" |
| Intake.MapRequestReadsOnlyMappedKeys | server.js:43-58 | bodies agreeing on the fourteen mapped keys give the same record: nothing else is added |
| Intake.LoanKeysIgnoredUnlessYes | server.js:51-53 | without a "yes", the loan keys do not influence the record |
| Intake.FailureMessage | server.js:72-76 | the reported message is the first entry's non-empty message, the default without an `errors` property, and a thrown error for an empty one |
| Intake.EscapeQuotes | server.js:80 | escaping adds one backslash per `"` and leaves no `"` without a backslash before it |
| Intake.UnescapeEscape | server.js:80 | for every message, turning each `\"` back into `"` gives the message: escaping changes nothing but the backslash put before each quote |
| Intake.EscapeQuotesRoundTrip | server.js:80 | reading the escaped text back as a string literal gives the message, for messages without backslashes or line breaks |
| Intake.FailureResponse | server.js:70-83 | a failure with an empty `errors` object is the only one left unanswered; every other is answered with status 400 and a non-empty alert which, for a message without backslashes or line breaks, reads back as a string literal to the reported message |
| Intake.Save | server.js:60-61 | the document is stored exactly when it is accepted and storage is available; a rejected one fails with its messages in order |
| Intake.Respond | server.js:60-84 | the reply is never an escaping error; a document is stored exactly when it is accepted and storage is available, and then it is the document itself, answered with status 200 and the confirmation; otherwise the status is 400 |
| Intake.HandlePost | server.js:39-85 | the same for the whole handler: the document built from the body is stored, with status 200 and the confirmation, exactly when it is accepted and storage is available |
| Intake.ExampleBodyStored | server.js:39-68 | a minimal complete body (no student loan, cash, terms accepted) whose email the pattern accepts is stored as built and answered with status 200 and the confirmation |
| Intake.RejectionMessage | server.js:72-80 | a rejected document is answered with its first message, escaped; a storage failure with the default message |
| Intake.UpiMissingAnswered | server.js:70-83 | paying by UPI without a UPI ID, with no student-loan detail missing, is answered with status 400 and the UPI-required message |
| Intake.FutureLoanYearAnswered | server.js:70-83 | a "yes" document otherwise accepted but for a loan year one past the schema's year is answered with status 400 and the future-year message |
| Intake.NoLoanFieldsStoredUnlessYes | server.js:51-53 | without a "yes", no loan detail is stored |
| Intake.NoLoanErrorsForOtherAnswers | server.js:51-53 | without a "yes", validation reports no loan path |
| Intake.RespondIgnoresDeclare | server.js:60-84 | as written, the reply does not depend on the declaration, and the stored document differs only in it |
| Intake.UntickedStoredAsWritten | server.js:39-68 | a body without `declare` gets the same reply as the same body with `declare=on`, and is stored exactly when that one is, with the terms declined |
| Client.SubmitEnabledSpec | public/emi.js:86-114 | the button is enabled exactly when the trimmed phone has the phone shape, the box is ticked, a loan type and a payment mode are chosen, the loan details are complete under "yes" and the trimmed UPI ID has the UPI shape in UPI mode |
| Client.LoanInputsIrrelevantUnlessYes | public/emi.js:93-100 | without "yes", the loan inputs do not affect the button |
| Client.UpiIrrelevantUnlessUpiMode | public/emi.js:102-103 | outside UPI mode, the UPI ID does not affect the button |
| Client.PhonePaddingIrrelevant | public/emi.js:87 | whitespace around the phone does not affect the button |
| Client.UpiPaddingIrrelevant | public/emi.js:103 | whitespace around the UPI ID does not affect the button |
| Client.PhoneFieldValid | public/emi.js:54-58 | the phone input is valid exactly when its trimmed value has the phone shape |
| Client.UpiErrorShown | public/emi.js:41-51 | the UPI error is shown exactly in UPI mode for a trimmed value not of the UPI shape |
| Client.BlankLoanBankDisables | public/emi.js:94-99 | under "yes", a loan bank of only whitespace keeps the button disabled |
| Client.YearFieldValidAsWritten | public/emi.js:68-75 | the year input's check as written accepts exactly the empty text, text that parses to 0 or to nothing, and a year in [2000, currentYear] |
| Client.YearZeroPassesAsWritten | public/emi.js:68-75 | as written, the year input accepts "0", which is neither empty nor in the window, and the handler shows no message for it |
| Client.YearFieldValid | public/emi.js:68-75 | the intended year check: the input is valid exactly when empty or a year in [2000, currentYear] |
| Client.Init | public/emi.js:18-22 | the first page has the button disabled, the box unticked and disabled, and its flags consistent |
| Client.Handle | public/emi.js:25-83 | the handlers: details shown and loan inputs required exactly for "yes"; UPI required exactly in UPI mode and its error hidden on a mode change; the per-input messages, the year's by the check as written; the box enabled only by the policy link, never disabled, and toggled only when enabled; each event's value lands in its own control and every other control keeps its value |
| Client.HandleKeepsFlags | public/emi.js:25-83 | every handler keeps the flags consistent with the field values |
| Client.StepKeepsInv | public/emi.js:25-114 | every event keeps the flags consistent and the button in step with the predicate |
| Client.RunKeepsInv | public/emi.js:25-114 | so does any sequence of events |
| Client.DeclareNeedsPolicyLink | public/emi.js:77-83 | the box, once enabled, stays enabled, and becomes enabled only through the policy link |
| Client.CheckedAfterPolicyLink | public/emi.js:77-83 | from the first page, a ticked box means the policy link was clicked |
| Client.Submit | public/emi.js:123-136 | a disabled button prevents submission with the fill-all alert; otherwise the form goes out unchanged but for the year, which parses to the same integer |
| Client.SentOnlyWhenEnabled | public/emi.js:123-127 | a form goes out only when the predicate holds |
| Agreement.FormBody | server.js:57 | the declaration arrives as "on" exactly when the box is ticked |
| Agreement.ReceivedPlain | server.js:44-57 | the server's record holds the phone, answer, loan type and payment mode as sent, the trimmed UPI ID and the ticked box |
| Agreement.ReceivedLoan | server.js:51-53 | under "yes", the record's loan bank is the trimmed input, its amount the decimal value of the amount input and its year the integer value of the year input |
| Agreement.AmountCheckAgrees | public/emi.js:61-65 | the page's amount check passes exactly for an empty input or one the server's setter turns into a non-negative amount; non-numeric text fails both |
| Agreement.ServerAcceptImpliesClientEnables | public/emi.js:86-113 | every ticked form the server accepts enables the button, when the server's year bound is not later than the page's year |
| Agreement.IntendedServerAcceptImpliesClientEnables | public/emi.js:86-113 | with the intended declaration rule, every form the server accepts enables the button, ticked or not |
| Agreement.UntickedDisagrees | models/forms.js:97-103 | an unticked box keeps the button disabled, yet the server validates the form exactly as if it were ticked |
| Agreement.PaddedPhoneDisagrees | models/forms.js:20-27 | a leading space on the phone keeps the button enabled but makes the server reject the form |
| Agreement.ZeroAmountDisagrees | models/forms.js:113 | a loan amount of "0" passes the page's check but the server reports it missing |
| Agreement.UpiOutsideUpiModeDisagrees | models/forms.js:89-95 | outside UPI mode a malformed UPI ID does not affect the button but the server rejects it |

## Left out

- Express setup, static files, the error-handling middleware, `app.listen` and process signals: process plumbing outside the handler.
- Intake.FailureMessage: an empty `errors` object makes the `catch` block throw; the model stops at that (`None`, `Unhandled`), because what the framework then does is outside the handler.
- The MongoDB connection and the insert: a valid document is stored or not according to the parameter `storeAvailable`; the timestamps the schema adds are not modelled.
- The email pattern of models/forms.js:16 is the opaque parameter `emailOk`; its backtracking structure is not characterised.
- Forms.SchemaErrors: the document library validates paths asynchronously and keys errors by path; the model reports paths in declaration order and, when the hook and a rule both reject one path (a loan year of 0), keeps both entries with the hook's first.
- JsValues.ParseFloat: covers only optionally signed decimal literals with an optional fraction; exponents, `Infinity`, leading whitespace and trailing junk (which `parseFloat` accepts) give NaN here.
- Numbers.ParseIntText: the model's `parseInt` on text; the same restriction as JsValues.ParseInt below.
- Numbers.ParseDecimal: the model's `parseFloat` on text; the same restriction as JsValues.ParseFloat below.
- JsValues.ParseInt: covers only optionally signed digit strings; `parseInt`'s leniency on trailing junk ("12abc" gives 12), leading whitespace and fractions ("2020.5" gives 2020) give NaN here.
- Forms.SetLoanAmount: a NaN from the setter is kept as absent; the document library would record a cast error whose message is not modelled.
- Forms.SetLoanYear: the same for a NaN year.
- Numbers are exact rationals: floating-point rounding, `toFixed(2)` on the amount before submission (public/emi.js:129-131), and numbers beyond double precision are not modelled.
- Client.Submit: the amount's `toFixed(2)` rewriting is left out; only the year's rewriting is modelled.
- Text.AsciiLower: lowers ASCII capitals only; `toLowerCase` also lowers capitals of other scripts, which the email path would do and the model does not.
- The request body is a map from names to strings: URL-encoded arrays or nested objects, JSON bodies and the `console` logging are not modelled.
- The DOM: `style.display`, `required`, `setCustomValidity`, `disabled`, `alert` and `window.open` are fields of the page record or results; the browser's own constraint validation on submit is not modelled.
- Client.Init: the markup is not part of this model; the first page is taken to have empty controls, the details block hidden, the UPI input optional and the checkbox disabled.
- Client.Handle: the generic `input`/`change` listeners (public/emi.js:117-120) only re-run `validateForm`, which the model does at the end of every event.

## Findings

| source | as written | input that shows it | evidently intended | confidence | as-written member | corrected member |
|---|---|---|---|---|---|---|
| models/forms.js:97-103 | `required` on a Boolean path counts both `true` and `false` as present, and the setter turns anything but "on"/true into `false`, so the rule never fires | a body with `declare=off` (or any value but "on") is stored with the terms declined | a declaration is required to be accepted (`true`) | medium: relies on the document library's Boolean `required` check; not executed | Forms.DeclareOffPassesAsWritten | Forms.ValidateIntended |
| public/emi.js:71 | the falsy test `!year` ahead of the range test treats a year that parses to 0 as valid | typing "0" in the loan-year input sets no validity message | the input is valid only when empty or in [2000, currentYear] | high: the falsy test was meant for the empty field; not executed | Client.YearZeroPassesAsWritten | Client.YearFieldValid |

=== FILE: agreement.dfy ===
/** The page script against the server: the body a browser sends for the
    form, and how the script's predicate for enabling the submit button
    relates to what the server accepts. The script is advisory: whatever
    ticked form the server accepts, when the server's year bound is not
    later than the page's year, the script would have let through (it never
    looks at name, email, address or bank), but not the other way round; and
    an unticked form the server accepts is one the script blocks. */
module Agreement {
  import opened Wrappers
  import opened Text
  import opened Numbers
  import opened JsValues
  import opened Patterns
  import opened Forms
  import opened Intake
  import opened Client

  /** The URL-encoded body of a submitted form: every named control, with
      the checkbox present (as "on") only when ticked. */
  function FormBody(f: ClientForm): (b: Body)
    ensures Lookup(b, "declare") == (if f.declareChecked then Some("on") else None)
  {
    var base := map[
      "name" := f.name, "email" := f.email, "phone" := f.phone, "address" := f.address,
      "emi" := f.emi, "bank" := f.bank, "student-loan" := f.studentLoan,
      "loan-bank" := f.loanBank, "loan-amount" := f.loanAmount, "loan-year" := f.loanYear,
      "loanType" := f.loanType, "paymentMode" := f.paymentMode, "upi" := f.upi];
    if f.declareChecked then base["declare" := "on"] else base
  }

  /** Every control's value arrives under its own name. */
  lemma FormBodyFields(f: ClientForm)
    ensures Lookup(FormBody(f), "phone") == Some(f.phone)
    ensures Lookup(FormBody(f), "student-loan") == Some(f.studentLoan)
    ensures Lookup(FormBody(f), "loan-bank") == Some(f.loanBank)
    ensures Lookup(FormBody(f), "loan-amount") == Some(f.loanAmount)
    ensures Lookup(FormBody(f), "loan-year") == Some(f.loanYear)
    ensures Lookup(FormBody(f), "loanType") == Some(f.loanType)
    ensures Lookup(FormBody(f), "paymentMode") == Some(f.paymentMode)
    ensures Lookup(FormBody(f), "upi") == Some(f.upi)
  {
  }

  /** The record the server builds from a submitted form. */
  function Received(f: ClientForm): Submission {
    New(MapRequest(FormBody(f)))
  }

  /** What the server's record holds for the controls the page checks. */
  lemma ReceivedPlain(f: ClientForm)
    ensures var rec := Received(f);
      && rec.phone == Some(f.phone)
      && rec.studentLoan == Some(f.studentLoan)
      && rec.loanType == Some(f.loanType)
      && rec.paymentMode == Some(f.paymentMode)
      && rec.upi == Some(Trim(f.upi))
      && rec.declare == f.declareChecked
  {
    FormBodyFields(f);
  }

  /** With the answer "yes", the record's loan details come from the loan
      controls: the trimmed bank, the decimal the amount text denotes and
      the integer the year text denotes, each absent when the text is not
      a number (parsing twice, in the handler and in the setter, changes
      nothing). */
  lemma ReceivedLoan(f: ClientForm)
    requires f.studentLoan == "yes"
    ensures var rec := Received(f);
      && rec.loanBank == Some(Trim(f.loanBank))
      && rec.loanAmount == ParseDecimal(f.loanAmount)
      && rec.loanYear == ParseIntText(f.loanYear)
      && (rec.loanYear.Some? ==>
            ParseInt(JsString(f.loanYear)).JsNumber? && rec.loanYear.value as real == ParseInt(JsString(f.loanYear)).x)
  {
    FormBodyFields(f);
    var data := MapRequest(FormBody(f));
    assert SaysYes(FormBody(f));
    var y := ParseInt(JsString(f.loanYear));
    assert data.loanYear == y;
    if y.JsNumber? { assert ParseInt(y) == y; }
    var a := ParseFloat(JsString(f.loanAmount));
    assert data.loanAmount == a;
    if a.JsNumber? { assert ParseFloat(a) == a; }
  }

  /** The page's predicate holds of a form whose record meets the
      server's bounds. */
  lemma EnabledFromRecord(f: ClientForm, rec: Submission, yearAtLoad: int, currentYear: int)
    requires yearAtLoad <= currentYear
    requires rec.phone == Some(f.phone) && PhoneSpec(f.phone)
    requires rec.declare == f.declareChecked && rec.declare
    requires rec.loanType == Some(f.loanType) && f.loanType in LoanTypes
    requires rec.paymentMode == Some(f.paymentMode) && f.paymentMode in PaymentModes
    requires rec.upi == Some(Trim(f.upi)) && (HasText(rec.upi) ==> UpiSpec(rec.upi.value))
    requires f.paymentMode == "upi" ==> HasText(rec.upi)
    requires f.studentLoan == "yes" ==> Trim(f.loanBank) != "" && f.loanAmount != ""
    requires f.studentLoan == "yes" ==>
      rec.loanYear.Some? && MinLoanYear <= rec.loanYear.value <= yearAtLoad
      && ParseInt(JsString(f.loanYear)).JsNumber? && rec.loanYear.value as real == ParseInt(JsString(f.loanYear)).x
    ensures SubmitEnabled(f, currentYear)
  {
    PhoneSpecUnpadded(f.phone);
    ChoicesNonEmpty();
    if f.studentLoan == "yes" {
      YearFromRecord(f.loanYear, rec.loanYear.value, yearAtLoad, currentYear);
    }
    UpiFromRecord(f.paymentMode, f.upi, rec.upi);
    SubmitEnabledSpec(f, currentYear);
  }

  /** None of the offered choices is the empty string. */
  lemma ChoicesNonEmpty()
    ensures "" !in LoanTypes && "" !in PaymentModes
  {
  }

  /** A year the server took within its bounds lies in the page's window. */
  lemma YearFromRecord(v: string, year: int, yearAtLoad: int, currentYear: int)
    requires yearAtLoad <= currentYear && MinLoanYear <= year <= yearAtLoad
    requires ParseInt(JsString(v)).JsNumber? && year as real == ParseInt(JsString(v)).x
    ensures YearInWindow(v, currentYear)
  {
  }

  /** In UPI mode a UPI ID the server took has the UPI shape after trimming. */
  lemma UpiFromRecord(paymentMode: string, upi: string, stored: Option<string>)
    requires stored == Some(Trim(upi)) && (HasText(stored) ==> UpiSpec(stored.value))
    requires paymentMode == "upi" ==> HasText(stored)
    ensures paymentMode == "upi" ==> UpiSpec(Trim(upi))
  {
  }

  /** Whatever ticked form the server accepts, the page would have let
      through, provided the server's year bound was fixed no later than the
      page's current year. An unticked form is the exception, see
      `UntickedDisagrees`. */
  lemma ServerAcceptImpliesClientEnables(f: ClientForm, yearAtLoad: int, currentYear: int, emailOk: string -> bool)
    requires yearAtLoad <= currentYear
    requires f.declareChecked
    requires Validate(Received(f), yearAtLoad, emailOk) == []
    ensures SubmitEnabled(f, currentYear)
  {
    var rec := Received(f);
    ReceivedPlain(f);
    AcceptedBounds(rec, yearAtLoad, emailOk);
    if f.studentLoan == "yes" {
      ReceivedLoan(f);
    }
    EnabledFromRecord(f, rec, yearAtLoad, currentYear);
  }

  /** Under the intended `declare` rule the exception goes away: whatever
      the server accepts, the page would have let through. */
  lemma IntendedServerAcceptImpliesClientEnables(f: ClientForm, yearAtLoad: int, currentYear: int, emailOk: string -> bool)
    requires yearAtLoad <= currentYear
    requires ValidateIntended(Received(f), yearAtLoad, emailOk) == []
    ensures SubmitEnabled(f, currentYear)
  {
    ReceivedPlain(f);
    ServerAcceptImpliesClientEnables(f, yearAtLoad, currentYear, emailOk);
  }

  /** The page never sends an unticked form, but the server, as written,
      answers it exactly as the ticked one: when it accepts the one it
      accepts the other. */
  lemma UntickedDisagrees(f: ClientForm, yearAtLoad: int, currentYear: int, emailOk: string -> bool)
    requires !f.declareChecked
    ensures !SubmitEnabled(f, currentYear)
    ensures Validate(Received(f), yearAtLoad, emailOk) == Validate(Received(f.(declareChecked := true)), yearAtLoad, emailOk)
  {
    UntickedDisables(f, currentYear);
    ReceivedUnticked(f);
    DeclareOffPassesAsWritten(Received(f.(declareChecked := true)), yearAtLoad, emailOk);
  }

  /** The unticked form's record is the ticked form's with the terms
      declined. */
  lemma ReceivedUnticked(f: ClientForm)
    requires !f.declareChecked
    ensures Received(f) == Received(f.(declareChecked := true)).(declare := false)
  {
    var g := f.(declareChecked := true);
    FormBodyUnticked(f);
    MapRequestWithoutDeclare(FormBody(g));
  }

  lemma FormBodyUnticked(f: ClientForm)
    requires !f.declareChecked
    ensures var b := FormBody(f.(declareChecked := true));
      FormBody(f) == b - {"declare"} && b["declare" := "on"] == b
  {
  }

  /** The loan-amount input's check accepts exactly an empty amount or one
      the server's setter reads as a number that is not negative; so text
      that is no number at all is flagged by the page while the server
      would drop it. */
  lemma AmountCheckAgrees(v: string)
    ensures AmountFieldValid(v) <==>
      v == "" || (SetLoanAmount(JsString(v)).Some? && SetLoanAmount(JsString(v)).value >= 0.0)
    ensures v != "" && ParseDecimal(v).None? ==> !AmountFieldValid(v) && SetLoanAmount(JsString(v)).None?
  {
  }

  /** The page trims the phone and the server does not: a phone the page
      accepts, sent with a leading space, still enables the button but is
      refused by the server. */
  lemma PaddedPhoneDisagrees(f: ClientForm, yearAtLoad: int, currentYear: int, emailOk: string -> bool)
    requires SubmitEnabled(f, currentYear)
    ensures var g := f.(phone := " " + f.phone);
      SubmitEnabled(g, currentYear) && Mentions(Validate(Received(g), yearAtLoad, emailOk), Phone)
  {
    PaddedPhoneEnabled(f, currentYear);
    var g := f.(phone := " " + f.phone);
    ReceivedPlain(g);
    PaddedPhoneRejected(Received(g), yearAtLoad, emailOk);
  }

  lemma PaddedPhoneEnabled(f: ClientForm, currentYear: int)
    requires SubmitEnabled(f, currentYear)
    ensures SubmitEnabled(f.(phone := " " + f.phone), currentYear)
  {
    assert AllSpace(" ");
    assert AllSpace("");
    assert " " + f.phone + "" == " " + f.phone;
    PhonePaddingIrrelevant(f, currentYear, " ", "");
  }

  /** The page only asks the loan amount to be non-empty; the server counts
      an amount of 0 as missing. */
  lemma ZeroAmountDisagrees(f: ClientForm, yearAtLoad: int, emailOk: string -> bool)
    requires f.studentLoan == "yes" && f.loanAmount == "0"
    ensures f.loanAmount != ""
    ensures Mentions(Validate(Received(f), yearAtLoad, emailOk), LoanAmount)
  {
    FormBodyFields(f);
    assert ParseIntText("0") == Some(0) by { IntTextRoundTrip(0); assert IntText(0) == "0"; }
    var rec := Received(f);
    assert rec.loanAmount == Some(0.0);
    ZeroLoanAmountMissing(rec);
  }

  /** The page ignores the UPI ID unless paying by UPI; the server checks
      any non-empty one. */
  lemma UpiOutsideUpiModeDisagrees(f: ClientForm, yearAtLoad: int, currentYear: int, emailOk: string -> bool, upi: string)
    requires f.paymentMode != "upi"
    requires Trim(upi) != "" && !UpiSpec(Trim(upi))
    ensures SubmitEnabled(f.(upi := upi), currentYear) == SubmitEnabled(f, currentYear)
    ensures Mentions(Validate(Received(f.(upi := upi)), yearAtLoad, emailOk), Upi)
  {
    UpiIrrelevantUnlessUpiMode(f, currentYear, upi);
    var g := f.(upi := upi);
    ReceivedPlain(g);
    BadUpiRejected(Received(g), yearAtLoad, emailOk);
  }
}

=== FILE: client.dfy ===
/** The page script public/emi.js over plain field values: the predicate
    that enables the submit button, the flags the change and input handlers
    keep (details shown, inputs required, the UPI error, the declaration
    checkbox, the per-field messages) and the submit guard. The current year
    is a parameter. */
module Client {
  import opened Wrappers
  import opened Text
  import opened Numbers
  import opened JsValues
  import opened Patterns

  /** The values of the form's controls; a select with nothing chosen has
      the value "". */
  datatype ClientForm = ClientForm(
    name: string, email: string, phone: string, address: string, emi: string, bank: string,
    studentLoan: string, loanBank: string, loanAmount: string, loanYear: string,
    loanType: string, paymentMode: string, upi: string, declareChecked: bool)

  const MinYear := 2000

  /** `year && year >= 2000 && year <= currentYear` with
      `year = value ? parseInt(value) : null`. */
  predicate YearInWindow(v: string, currentYear: int) {
    v != "" && ParseInt(JsString(v)).JsNumber?
    && MinYear as real <= ParseInt(JsString(v)).x <= currentYear as real
  }

  /** The student-loan condition of `validateForm`. */
  predicate StudentLoanOk(f: ClientForm, currentYear: int) {
    f.studentLoan == "yes" ==>
      Trim(f.loanBank) != "" && f.loanAmount != "" && YearInWindow(f.loanYear, currentYear)
  }

  /** `validateForm`: whether the submit button is enabled. */
  function SubmitEnabled(f: ClientForm, currentYear: int): bool {
    var studentLoanValid :=
      if f.studentLoan == "yes" then
        Trim(f.loanBank) != "" && f.loanAmount != "" && YearInWindow(f.loanYear, currentYear)
      else true;
    var upiValid := f.paymentMode != "upi" || UpiMatch(Trim(f.upi));
    PhoneMatch(Trim(f.phone)) && f.declareChecked && f.loanType != "" && f.paymentMode != ""
    && studentLoanValid && upiValid
  }

  /** The button is enabled exactly when the trimmed phone has the phone's
      shape, the declaration is ticked, a loan type and a payment mode are
      chosen, the student-loan details are complete when the answer is
      "yes", and the trimmed UPI ID has the UPI shape when paying by UPI. */
  lemma SubmitEnabledSpec(f: ClientForm, currentYear: int)
    ensures SubmitEnabled(f, currentYear) <==>
      && PhoneSpec(Trim(f.phone))
      && f.declareChecked
      && f.loanType != ""
      && f.paymentMode != ""
      && StudentLoanOk(f, currentYear)
      && (f.paymentMode == "upi" ==> UpiSpec(Trim(f.upi)))
  {
    PhoneMatchSpec(Trim(f.phone));
    UpiMatchSpec(Trim(f.upi));
  }

  /** Unless the answer is "yes", the loan inputs do not affect the button. */
  lemma LoanInputsIrrelevantUnlessYes(f: ClientForm, currentYear: int, bank: string, amount: string, year: string)
    requires f.studentLoan != "yes"
    ensures SubmitEnabled(f.(loanBank := bank, loanAmount := amount, loanYear := year), currentYear)
      == SubmitEnabled(f, currentYear)
  {
  }

  /** Unless paying by UPI, the UPI ID does not affect the button. */
  lemma UpiIrrelevantUnlessUpiMode(f: ClientForm, currentYear: int, upi: string)
    requires f.paymentMode != "upi"
    ensures SubmitEnabled(f.(upi := upi), currentYear) == SubmitEnabled(f, currentYear)
  {
  }

  /** Surrounding whitespace on the phone does not affect the button: the
      script trims it. */
  lemma PhonePaddingIrrelevant(f: ClientForm, currentYear: int, pre: string, post: string)
    requires AllSpace(pre) && AllSpace(post)
    ensures SubmitEnabled(f.(phone := pre + f.phone + post), currentYear) == SubmitEnabled(f, currentYear)
  {
    TrimPadding(pre, f.phone, post);
  }

  /** Nor does whitespace around the UPI ID. */
  lemma UpiPaddingIrrelevant(f: ClientForm, currentYear: int, pre: string, post: string)
    requires AllSpace(pre) && AllSpace(post)
    ensures SubmitEnabled(f.(upi := pre + f.upi + post), currentYear) == SubmitEnabled(f, currentYear)
  {
    TrimPadding(pre, f.upi, post);
  }

  /** Under "yes", a loan bank of nothing but whitespace keeps the button
      disabled, since its trimmed value is empty. */
  lemma BlankLoanBankDisables(f: ClientForm, currentYear: int)
    requires f.studentLoan == "yes" && AllSpace(f.loanBank)
    ensures !SubmitEnabled(f, currentYear)
  {
    TrimEmptyIffAllSpace(f.loanBank);
  }

  // ---------------------------------------------------- per-field checks

  const PhoneMessage := "Enter valid 10-digit Indian phone number"
  const AmountMessage := "Loan amount cannot be negative"

  function YearMessage(currentYear: int): (r: string)
    ensures r != ""
  {
    "Year must be between 2000 and " + IntText(currentYear)
  }

  /** The phone input's check: the trimmed value has the phone's shape. */
  function PhoneFieldValid(v: string): (r: bool)
    ensures r <==> PhoneSpec(Trim(v))
  {
    PhoneMatchSpec(Trim(v));
    PhoneMatch(Trim(v))
  }

  /** The UPI input's handler: the error is shown when paying by UPI and
      the trimmed value does not have the UPI shape. */
  function UpiErrorShown(paymentMode: string, v: string): (r: bool)
    ensures r <==> paymentMode == "upi" && !UpiSpec(Trim(v))
  {
    UpiMatchSpec(Trim(v));
    paymentMode == "upi" && !UpiMatch(Trim(v))
  }

  /** The loan-amount input's check: empty, or a number that is not
      negative. */
  function AmountFieldValid(v: string): (r: bool)
    ensures r <==> v == "" || (ParseDecimal(v).Some? && ParseDecimal(v).value >= 0.0)
  {
    v == "" || match ParseFloat(JsString(v)) case JsNumber(x) => x >= 0.0 case _ => false
  }

  /** The loan-year input's check as written: `!year || ...`, where a year
      that parses to 0, or does not parse at all, is falsy and so counts as
      valid. It accepts what the intended check `YearFieldValid` accepts and,
      beyond that, exactly the text that parses to 0 or to nothing (see
      "Findings" in the README). */
  function YearFieldValidAsWritten(v: string, currentYear: int): (r: bool)
    ensures r <==> v == "" || ParseIntText(v).None? || ParseIntText(v) == Some(0) || YearInWindow(v, currentYear)
  {
    var year := if v != "" then ParseInt(JsString(v)) else JsNaN;
    var falsy := year.JsNaN? || year.x == 0.0;
    falsy || (MinYear as real <= year.x <= currentYear as real)
  }

  /** "0" is neither empty nor in the window, yet passes the check, so
      typing it leaves the loan-year input without a message. */
  lemma YearZeroPassesAsWritten(ui: Ui, currentYear: int)
    ensures YearFieldValidAsWritten("0", currentYear)
    ensures !YearFieldValid("0", currentYear)
    ensures Handle(ui, LoanYearTyped("0"), currentYear).yearMessage == ""
  {
    assert ParseIntText("0") == Some(0) by { IntTextRoundTrip(0); assert IntText(0) == "0"; }
  }

  /** The intended loan-year check: empty, or a year in the window. */
  function YearFieldValid(v: string, currentYear: int): (r: bool)
    ensures r <==> v == "" || YearInWindow(v, currentYear)
  {
    var year := if v != "" then ParseInt(JsString(v)) else JsNaN;
    v == "" || (year.JsNumber? && MinYear as real <= year.x <= currentYear as real)
  }

  // ------------------------------------------------------------ the page

  /** What the page shows besides the field values: whether the loan
      details are shown and their inputs required, whether the UPI ID is
      required and its error shown, whether the checkbox and the button
      are enabled, and the custom validity messages ("" for none). */
  datatype Ui = Ui(
    form: ClientForm,
    detailsShown: bool, loanBankRequired: bool, loanAmountRequired: bool, loanYearRequired: bool,
    upiRequired: bool, upiErrorShown: bool,
    declareEnabled: bool, submitDisabled: bool,
    phoneMessage: string, amountMessage: string, yearMessage: string)

  /** The inputs that no specific handler watches. */
  datatype OtherInput = NameInput | EmailInput | AddressInput | EmiInput | BankInput | LoanBankInput | LoanTypeInput

  datatype Event =
    | StudentLoanChanged(value: string)
    | PaymentModeChanged(value: string)
    | UpiTyped(value: string)
    | PhoneTyped(value: string)
    | LoanAmountTyped(value: string)
    | LoanYearTyped(value: string)
    | OtherEdited(input: OtherInput, value: string)
    | DeclareClicked
    | PolicyLinkClicked

  /** Typing `v` into one of the unwatched inputs: that control takes the
      value and every other control keeps its own. */
  function SetOther(f: ClientForm, input: OtherInput, v: string): (r: ClientForm)
    ensures r.name == (if input == NameInput then v else f.name)
    ensures r.email == (if input == EmailInput then v else f.email)
    ensures r.address == (if input == AddressInput then v else f.address)
    ensures r.emi == (if input == EmiInput then v else f.emi)
    ensures r.bank == (if input == BankInput then v else f.bank)
    ensures r.loanBank == (if input == LoanBankInput then v else f.loanBank)
    ensures r.loanType == (if input == LoanTypeInput then v else f.loanType)
    ensures r.phone == f.phone && r.declareChecked == f.declareChecked && r.studentLoan == f.studentLoan
    ensures r.paymentMode == f.paymentMode && r.upi == f.upi && r.loanAmount == f.loanAmount && r.loanYear == f.loanYear
  {
    match input
    case NameInput => f.(name := v)
    case EmailInput => f.(email := v)
    case AddressInput => f.(address := v)
    case EmiInput => f.(emi := v)
    case BankInput => f.(bank := v)
    case LoanBankInput => f.(loanBank := v)
    case LoanTypeInput => f.(loanType := v)
  }

  /** `validateForm()` applied to the page. */
  function Refresh(ui: Ui, currentYear: int): (r: Ui)
    ensures r.submitDisabled <==> !SubmitEnabled(ui.form, currentYear)
    ensures r.(submitDisabled := ui.submitDisabled) == ui
  {
    ui.(submitDisabled := !SubmitEnabled(ui.form, currentYear))
  }

  /** The page before the first event: empty controls, the details block
      hidden, the UPI input optional and the checkbox disabled as the
      markup has them, the loan inputs made optional and the UPI error
      hidden by the script, then one `validateForm()`. */
  function Init(currentYear: int): (r: Ui)
    ensures r.submitDisabled && !r.declareEnabled && !r.form.declareChecked
    ensures Inv(r, currentYear)
  {
    var empty := ClientForm("", "", "", "", "", "", "", "", "", "", "", "", "", false);
    var ui := Ui(empty, false, false, false, false, false, false, false, false, "", "", "");
    assert FlagsConsistent(ui);
    UntickedDisables(empty, currentYear);
    Refresh(ui, currentYear)
  }

  /** Without the declaration ticked the button stays disabled. */
  lemma UntickedDisables(f: ClientForm, currentYear: int)
    requires !f.declareChecked
    ensures !SubmitEnabled(f, currentYear)
  {
  }

  /** The handler an event triggers, before its closing `validateForm()`. */
  function Handle(ui: Ui, e: Event, currentYear: int): (r: Ui)
    ensures r.submitDisabled == ui.submitDisabled
    ensures ui.declareEnabled ==> r.declareEnabled
    ensures r.declareEnabled ==> ui.declareEnabled || e == PolicyLinkClicked
    ensures r.form.declareChecked != ui.form.declareChecked ==> e == DeclareClicked && ui.declareEnabled
    ensures e.StudentLoanChanged? ==>
      && r.detailsShown == r.loanBankRequired == r.loanAmountRequired == r.loanYearRequired == (e.value == "yes")
    ensures e.PaymentModeChanged? ==> r.upiRequired == (e.value == "upi") && !r.upiErrorShown
    ensures e.UpiTyped? ==> (r.upiErrorShown <==> ui.form.paymentMode == "upi" && !UpiSpec(Trim(e.value)))
    ensures e.PhoneTyped? ==> (r.phoneMessage == "" <==> PhoneSpec(Trim(e.value)))
    ensures e.LoanAmountTyped? ==> (r.amountMessage == "" <==> AmountFieldValid(e.value))
    ensures e.LoanYearTyped? ==> (r.yearMessage == "" <==> YearFieldValidAsWritten(e.value, currentYear))
    ensures e.LoanYearTyped? && (e.value == "" || YearInWindow(e.value, currentYear)) ==> r.yearMessage == ""
    // The event's value lands in its control, and no other control changes.
    ensures e.StudentLoanChanged? ==> r.form == ui.form.(studentLoan := e.value)
    ensures e.PaymentModeChanged? ==> r.form == ui.form.(paymentMode := e.value)
    ensures e.UpiTyped? ==> r.form == ui.form.(upi := e.value)
    ensures e.PhoneTyped? ==> r.form == ui.form.(phone := e.value)
    ensures e.LoanAmountTyped? ==> r.form == ui.form.(loanAmount := e.value)
    ensures e.LoanYearTyped? ==> r.form == ui.form.(loanYear := e.value)
    ensures e.OtherEdited? ==> r.form == SetOther(ui.form, e.input, e.value)
    ensures e.DeclareClicked? ==> r.form.(declareChecked := ui.form.declareChecked) == ui.form
    ensures e.PolicyLinkClicked? ==> r.form == ui.form
  {
    match e
    case StudentLoanChanged(v) =>
      var show := v == "yes";
      ui.(form := ui.form.(studentLoan := v), detailsShown := show,
          loanBankRequired := show, loanAmountRequired := show, loanYearRequired := show)
    case PaymentModeChanged(v) =>
      ui.(form := ui.form.(paymentMode := v), upiRequired := v == "upi", upiErrorShown := false)
    case UpiTyped(v) =>
      ui.(form := ui.form.(upi := v), upiErrorShown := UpiErrorShown(ui.form.paymentMode, v))
    case PhoneTyped(v) =>
      ui.(form := ui.form.(phone := v), phoneMessage := if PhoneFieldValid(v) then "" else PhoneMessage)
    case LoanAmountTyped(v) =>
      ui.(form := ui.form.(loanAmount := v), amountMessage := if AmountFieldValid(v) then "" else AmountMessage)
    case LoanYearTyped(v) =>
      ui.(form := ui.form.(loanYear := v), yearMessage := if YearFieldValidAsWritten(v, currentYear) then "" else YearMessage(currentYear))
    case OtherEdited(input, v) =>
      ui.(form := SetOther(ui.form, input, v))
    case DeclareClicked =>
      if ui.declareEnabled then ui.(form := ui.form.(declareChecked := !ui.form.declareChecked)) else ui
    case PolicyLinkClicked =>
      ui.(declareEnabled := true)
  }

  /** One user action: its handler, then `validateForm()`. */
  function Step(ui: Ui, e: Event, currentYear: int): (r: Ui)
    ensures r.submitDisabled <==> !SubmitEnabled(r.form, currentYear)
    ensures r.(submitDisabled := ui.submitDisabled) == Handle(ui, e, currentYear)
  {
    Refresh(Handle(ui, e, currentYear), currentYear)
  }

  /** What the handlers keep true of the flags: the loan inputs are shown
      and required exactly when the answer is "yes", the UPI ID is required
      exactly in UPI mode, its error is shown only for a bad ID in UPI mode,
      the checkbox is ticked only once enabled, and the phone message only
      shows for a bad phone. */
  predicate FlagsConsistent(ui: Ui) {
    && ui.detailsShown == ui.loanBankRequired == ui.loanAmountRequired == ui.loanYearRequired == (ui.form.studentLoan == "yes")
    && ui.upiRequired == (ui.form.paymentMode == "upi")
    && (ui.upiErrorShown ==> ui.form.paymentMode == "upi" && !UpiSpec(Trim(ui.form.upi)))
    && (ui.form.declareChecked ==> ui.declareEnabled)
    && (ui.phoneMessage != "" ==> !PhoneSpec(Trim(ui.form.phone)))
  }

  /** What the page keeps true between events: consistent flags, and the
      button enabled exactly when `validateForm` allows it. */
  predicate Inv(ui: Ui, currentYear: int) {
    FlagsConsistent(ui) && (ui.submitDisabled <==> !SubmitEnabled(ui.form, currentYear))
  }

  lemma HandleKeepsFlags(ui: Ui, e: Event, currentYear: int)
    requires FlagsConsistent(ui)
    ensures FlagsConsistent(Handle(ui, e, currentYear))
  {
    match e
    case OtherEdited(input, v) =>
      var f := SetOther(ui.form, input, v);
      assert f.studentLoan == ui.form.studentLoan && f.paymentMode == ui.form.paymentMode;
      assert f.upi == ui.form.upi && f.phone == ui.form.phone && f.declareChecked == ui.form.declareChecked;
    case _ =>
  }

  lemma StepKeepsInv(ui: Ui, e: Event, currentYear: int)
    requires Inv(ui, currentYear)
    ensures Inv(Step(ui, e, currentYear), currentYear)
  {
    HandleKeepsFlags(ui, e, currentYear);
  }

  /** A sequence of events, all within one year. */
  function Run(ui: Ui, events: seq<Event>, currentYear: int): Ui
    decreases |events|
  {
    if events == [] then ui else Run(Step(ui, events[0], currentYear), events[1..], currentYear)
  }

  lemma {:induction false} RunKeepsInv(ui: Ui, events: seq<Event>, currentYear: int)
    decreases |events|
    requires Inv(ui, currentYear)
    ensures Inv(Run(ui, events, currentYear), currentYear)
  {
    if events != [] {
      StepKeepsInv(ui, events[0], currentYear);
      RunKeepsInv(Step(ui, events[0], currentYear), events[1..], currentYear);
    }
  }

  /** No handler disables the checkbox again, and it only becomes enabled
      through the policy link; so it can only be ticked after the link was
      clicked. */
  lemma {:induction false} DeclareNeedsPolicyLink(ui: Ui, events: seq<Event>, currentYear: int)
    decreases |events|
    ensures ui.declareEnabled ==> Run(ui, events, currentYear).declareEnabled
    ensures Run(ui, events, currentYear).declareEnabled ==> ui.declareEnabled || PolicyLinkClicked in events
  {
    if events != [] {
      var next := Step(ui, events[0], currentYear);
      assert next.declareEnabled == Handle(ui, events[0], currentYear).declareEnabled;
      DeclareNeedsPolicyLink(next, events[1..], currentYear);
      assert Run(ui, events, currentYear) == Run(next, events[1..], currentYear);
      if PolicyLinkClicked in events[1..] { assert PolicyLinkClicked in events; }
      if events[0] == PolicyLinkClicked { assert PolicyLinkClicked in events; }
    }
  }

  /** From the initial page, a ticked declaration means the policy link was
      clicked. */
  lemma CheckedAfterPolicyLink(events: seq<Event>, currentYear: int)
    ensures Run(Init(currentYear), events, currentYear).form.declareChecked ==> PolicyLinkClicked in events
  {
    RunKeepsInv(Init(currentYear), events, currentYear);
    DeclareNeedsPolicyLink(Init(currentYear), events, currentYear);
  }

  // -------------------------------------------------------------- submit

  const FillAllMessage := "Please fill all required fields correctly."

  datatype SubmitResult = Prevented(alert: string) | Sent(form: ClientForm)

  /** The submit handler: a disabled button prevents submission; otherwise
      the form goes out, with a loan year rewritten as the integer it
      parses to. */
  function Submit(ui: Ui): (r: SubmitResult)
    ensures ui.submitDisabled <==> r == Prevented(FillAllMessage)
    ensures r.Sent? ==> r.form.(loanYear := ui.form.loanYear) == ui.form
    ensures r.Sent? && ParseIntText(ui.form.loanYear).Some? ==>
      ParseIntText(r.form.loanYear) == ParseIntText(ui.form.loanYear)
  {
    if ui.submitDisabled then Prevented(FillAllMessage)
    else
      var f := ui.form;
      if f.loanYear != "" then
        match ParseInt(JsString(f.loanYear))
        case JsNumber(x) =>
          IntTextRoundTrip(x.Floor);
          Sent(f.(loanYear := IntText(x.Floor)))
        case _ => Sent(f.(loanYear := "NaN"))
      else Sent(f)
  }

  /** On a page in its invariant, a form goes out only when the script's
      predicate holds. */
  lemma SentOnlyWhenEnabled(ui: Ui, currentYear: int)
    requires Inv(ui, currentYear)
    ensures Submit(ui).Sent? ==> SubmitEnabled(ui.form, currentYear)
  {
  }
}

=== FILE: forms.dfy ===
/** The `Form` document of models/forms.js: its paths, the setters that
    normalise what the handler passes in, the per-path schema rules, and the
    `pre('validate')` hook that makes the student-loan and UPI paths
    conditionally required. */
module Forms {
  import opened Wrappers
  import opened Text
  import opened Numbers
  import opened JsValues
  import opened Patterns

  /** The document's paths, in the order the schema declares them. */
  datatype Field =
    | Name | Email | Phone | Address | Emi | Bank | StudentLoan
    | LoanBank | LoanAmount | LoanYear | LoanType | PaymentMode | Upi | Declare

  const SchemaOrder: seq<Field> :=
    [Name, Email, Phone, Address, Emi, Bank, StudentLoan,
     LoanBank, LoanAmount, LoanYear, LoanType, PaymentMode, Upi, Declare]

  /** Position of a path in the schema. */
  function Rank(f: Field): nat {
    match f
    case Name => 0 case Email => 1 case Phone => 2 case Address => 3
    case Emi => 4 case Bank => 5 case StudentLoan => 6 case LoanBank => 7
    case LoanAmount => 8 case LoanYear => 9 case LoanType => 10
    case PaymentMode => 11 case Upi => 12 case Declare => 13
  }

  /** One entry of a validation error: the path and its message. */
  datatype FieldError = FieldError(field: Field, message: string)

  /** The plain object the handler passes to `new Form(...)`. */
  datatype FormData = FormData(
    name: Option<string>, email: Option<string>, phone: Option<string>,
    address: Option<string>, emi: Option<string>, bank: Option<string>,
    studentLoan: Option<string>, loanBank: Option<string>,
    loanAmount: JsValue, loanYear: JsValue,
    loanType: Option<string>, paymentMode: Option<string>, upi: Option<string>,
    declare: JsValue)

  /** A document after its setters have run: the values that are validated
      and, when valid, stored. */
  datatype Submission = Submission(
    name: Option<string>, email: Option<string>, phone: Option<string>,
    address: Option<string>, emi: Option<string>, bank: Option<string>,
    studentLoan: Option<string>, loanBank: Option<string>,
    loanAmount: Option<real>, loanYear: Option<int>,
    loanType: Option<string>, paymentMode: Option<string>, upi: Option<string>,
    declare: bool)

  const Banks: seq<string> := ["SBI", "HDFC", "ICICI", "Axis", "PNB", "Slice", "mPokket", "KreditBee", "Other"]
  const StudentLoanAnswers: seq<string> := ["yes", "no"]
  const LoanTypes: seq<string> := ["home", "personal", "education"]
  const PaymentModes: seq<string> := ["cash", "upi", "card", "netbanking", "auto_debit", "ecs", "cheque"]

  const NameMaxLength := 100
  const AddressMaxLength := 200
  const LoanBankMaxLength := 50
  const MinLoanYear := 2000

  const NameRequired := "Name is required"
  const NameTooLong := "Name cannot exceed 100 characters"
  const EmailRequired := "Email is required"
  const EmailInvalid := "Please enter a valid email address"
  const PhoneRequired := "Phone number is required"
  const PhoneInvalid := "Please enter a valid 10-digit Indian phone number starting with 6-9"
  const AddressTooLong := "Address cannot exceed 200 characters"
  const BankRequired := "Bank selection is required"
  const BankInvalid := "Please select a valid bank option"
  const StudentLoanRequired := "Please specify if you've used a student loan before"
  const StudentLoanInvalid := "Please select either 'Yes' or 'No'"
  const LoanBankTooLong := "Bank name cannot exceed 50 characters"
  const LoanAmountNegative := "Loan amount cannot be negative"
  const LoanYearTooEarly := "Loan year must be after 2000"
  const LoanYearInFuture := "Loan year cannot be in the future"
  const LoanTypeRequired := "Loan type is required"
  const LoanTypeInvalid := "Please select a valid loan type"
  const PaymentModeRequired := "Payment mode is required"
  const PaymentModeInvalid := "Please select a valid payment mode"
  const UpiInvalid := "Please enter a valid UPI ID (e.g., name@bank)"
  const DeclareRequired := "You must agree to the terms and policy"
  const LoanBankMissing := "Bank name required for student loan"
  const LoanAmountMissing := "Loan amount required for student loan"
  const LoanYearMissing := "Loan year required for student loan"
  const UpiMissing := "UPI ID required when payment mode is UPI"

  // ------------------------------------------------------------- setters

  /** The `set` of `loanAmount`: `''` and `undefined` become absent, anything
      else goes through `parseFloat`. A NaN result is kept as absent. */
  function SetLoanAmount(v: JsValue): (r: Option<real>)
    ensures v == Undefined || v == JsString("") ==> r.None?
    ensures r.Some? <==> ParseFloat(v).JsNumber?
    ensures r.Some? ==> r.value == ParseFloat(v).x
  {
    if v == Undefined || v == JsString("") then None
    else match ParseFloat(v)
      case JsNumber(x) => Some(x)
      case _ => None
  }

  /** The `set` of `loanYear`: `''` and `undefined` become absent, anything
      else goes through `parseInt`. A NaN result is kept as absent. */
  function SetLoanYear(v: JsValue): (r: Option<int>)
    ensures v == Undefined || v == JsString("") ==> r.None?
    ensures r.Some? <==> ParseInt(v).JsNumber?
    ensures r.Some? ==> r.value as real == ParseInt(v).x
  {
    if v == Undefined || v == JsString("") then None
    else match ParseInt(v)
      case JsNumber(x) => Some(x.Floor)
      case _ => None
  }

  /** The `set` of `declare`: true exactly for the string "on" and the
      boolean true. */
  function SetDeclare(v: JsValue): (r: bool)
    ensures r <==> v == JsString("on") || v == JsBool(true)
  {
    match v
    case JsString(s) => s == "on"
    case JsBool(b) => b
    case _ => false
  }

  /** A string path with `trim: true`: the value keeps its middle slice,
      only whitespace is dropped from either end. */
  function Trimmed(o: Option<string>): (r: Option<string>)
    ensures r.Some? <==> o.Some?
    ensures r.Some? ==> var k := LeadingSpace(o.value);
      && k + |r.value| <= |o.value|
      && r.value == o.value[k..k + |r.value|]
      && AllSpace(o.value[..k]) && AllSpace(o.value[k + |r.value|..])
      && Unpadded(r.value)
  {
    match o
    case Some(s) => Some(Trim(s))
    case None => None
  }

  /** A string path with `trim: true` and `lowercase: true`: the trimmed
      value, character by character lower-cased. */
  function LowerTrimmed(o: Option<string>): (r: Option<string>)
    ensures r.Some? <==> o.Some?
    ensures r.Some? ==> |r.value| == |Trimmed(o).value|
    ensures r.Some? ==> forall i :: 0 <= i < |r.value| ==> r.value[i] == LowerChar(Trimmed(o).value[i])
    ensures r.Some? ==> Unpadded(r.value) && NoCapitals(r.value)
  {
    match o
    case Some(s) => AsciiLowerUnpadded(Trim(s)); Some(AsciiLower(Trim(s)))
    case None => None
  }

  /** An email without surrounding whitespace or capitals is stored as it
      is. */
  lemma LowerTrimmedPlain(s: string)
    requires Unpadded(s) && NoCapitals(s)
    ensures LowerTrimmed(Some(s)) == Some(s)
  {
    assert AsciiLower(Trim(s)) == s by {
      TrimUnpadded(s);
      AsciiLowerNoCapitals(s);
    }
  }

  /** Trimming a trimmed path changes nothing: a stored value sent again
      comes back the same. */
  lemma TrimmedIdempotent(o: Option<string>)
    ensures Trimmed(Trimmed(o)) == Trimmed(o)
  {
    if o.Some? { TrimIdempotent(o.value); }
  }

  predicate UnpaddedIfPresent(o: Option<string>) {
    o.Some? ==> Unpadded(o.value)
  }

  /** `new Form(data)`: every path's setters applied. Trimmed paths lose
      their surrounding whitespace, `email` is also lower-cased, and the
      paths without setters (among them `phone`) keep the value given. */
  function New(data: FormData): (rec: Submission)
    ensures rec.phone == data.phone && rec.bank == data.bank
    ensures rec.studentLoan == data.studentLoan
    ensures rec.loanType == data.loanType && rec.paymentMode == data.paymentMode
    ensures rec.name == Trimmed(data.name) && rec.address == Trimmed(data.address) && rec.emi == Trimmed(data.emi)
    ensures rec.loanBank == Trimmed(data.loanBank) && rec.upi == Trimmed(data.upi)
    ensures rec.email == LowerTrimmed(data.email)
    ensures rec.loanAmount == SetLoanAmount(data.loanAmount) && rec.loanYear == SetLoanYear(data.loanYear)
    ensures rec.declare == SetDeclare(data.declare)
    ensures rec.name.Some? <==> data.name.Some?
    ensures rec.upi.Some? <==> data.upi.Some?
    ensures rec.loanBank.Some? <==> data.loanBank.Some?
    ensures rec.email.Some? <==> data.email.Some?
    ensures UnpaddedIfPresent(rec.name) && UnpaddedIfPresent(rec.email) && UnpaddedIfPresent(rec.address)
    ensures UnpaddedIfPresent(rec.emi) && UnpaddedIfPresent(rec.loanBank) && UnpaddedIfPresent(rec.upi)
    ensures rec.email.Some? ==> NoCapitals(rec.email.value)
    ensures rec.loanAmount.Some? <==> ParseFloat(data.loanAmount).JsNumber? && data.loanAmount != JsString("")
    ensures rec.loanYear.Some? <==> ParseInt(data.loanYear).JsNumber? && data.loanYear != JsString("")
    ensures rec.loanAmount.Some? ==> rec.loanAmount.value == ParseFloat(data.loanAmount).x
    ensures rec.loanYear.Some? ==> rec.loanYear.value as real == ParseInt(data.loanYear).x
    ensures rec.declare <==> data.declare == JsString("on") || data.declare == JsBool(true)
  {
    Submission(
      Trimmed(data.name), LowerTrimmed(data.email), data.phone, Trimmed(data.address), Trimmed(data.emi), data.bank,
      data.studentLoan, Trimmed(data.loanBank), SetLoanAmount(data.loanAmount), SetLoanYear(data.loanYear),
      data.loanType, data.paymentMode, Trimmed(data.upi), SetDeclare(data.declare))
  }

  /** A name and an email already without surrounding whitespace (and, for
      the email, without capitals) are stored as given. */
  lemma NewKeepsPlainText(data: FormData)
    requires data.name.Some? ==> Unpadded(data.name.value)
    requires data.email.Some? ==> Unpadded(data.email.value)
    requires data.email.Some? ==> NoCapitals(data.email.value)
    ensures New(data).name == data.name && New(data).email == data.email
  {
    if data.name.Some? { TrimUnpadded(data.name.value); }
    if data.email.Some? { LowerTrimmedPlain(data.email.value); }
  }

  // -------------------------------------------------------- schema rules

  /** JavaScript truthiness of a string path: present and non-empty. */
  predicate HasText(o: Option<string>) {
    o.Some? && o.value != ""
  }

  /** JavaScript truthiness of a number path: present and non-zero. */
  predicate HasAmount(o: Option<real>) {
    o.Some? && o.value != 0.0
  }

  predicate HasYear(o: Option<int>) {
    o.Some? && o.value != 0
  }

  /** `required` then `enum` on a string path. */
  function EnumRule(v: Option<string>, values: seq<string>, required: string, invalid: string): (r: Option<string>)
    requires "" !in values
    ensures r.None? <==> v.Some? && v.value in values
    ensures r.Some? ==> r.value == (if HasText(v) then invalid else required)
  {
    if !HasText(v) then Some(required)
    else if v.value !in values then Some(invalid)
    else None
  }

  /** `maxlength` on an optional string path, measured in UTF-16 code units. */
  function MaxLengthRule(v: Option<string>, max: nat, message: string): (r: Option<string>)
    ensures r.None? <==> v.None? || Utf16Length(v.value) <= max
    ensures r.Some? ==> r.value == message
  {
    if v.Some? && Utf16Length(v.value) > max then Some(message) else None
  }

  /** The `required` rule on the Boolean `declare` path as written: the
      document library counts both `true` and `false` as present, so the rule
      never fires (see "Findings" in the README). */
  function DeclareRuleAsWritten(declare: bool): Option<string> {
    var present := declare == true || declare == false;
    if present then None else Some(DeclareRequired)
  }

  /** The intended `declare` rule: the terms must have been accepted. Only
      `ValidateIntended` applies it. */
  function DeclareRule(declare: bool): (r: Option<string>)
    ensures r.None? <==> declare
  {
    if declare then None else Some(DeclareRequired)
  }

  /** The message of the first failing validator of path `f`, if any;
      `yearAtLoad` is the year when the schema was built, `emailOk` the
      email pattern. */
  function FieldCheck(f: Field, rec: Submission, yearAtLoad: int, emailOk: string -> bool): Option<string> {
    match f
    case Name =>
      if !HasText(rec.name) then Some(NameRequired)
      else MaxLengthRule(rec.name, NameMaxLength, NameTooLong)
    case Email =>
      if !HasText(rec.email) then Some(EmailRequired)
      else if !emailOk(rec.email.value) then Some(EmailInvalid)
      else None
    case Phone =>
      if !HasText(rec.phone) then Some(PhoneRequired)
      else if !PhoneMatch(rec.phone.value) then Some(PhoneInvalid)
      else None
    case Address => MaxLengthRule(rec.address, AddressMaxLength, AddressTooLong)
    case Emi => None
    case Bank => EnumRule(rec.bank, Banks, BankRequired, BankInvalid)
    case StudentLoan => EnumRule(rec.studentLoan, StudentLoanAnswers, StudentLoanRequired, StudentLoanInvalid)
    case LoanBank => MaxLengthRule(rec.loanBank, LoanBankMaxLength, LoanBankTooLong)
    case LoanAmount =>
      if rec.loanAmount.Some? && rec.loanAmount.value < 0.0 then Some(LoanAmountNegative) else None
    case LoanYear =>
      if rec.loanYear.Some? && rec.loanYear.value < MinLoanYear then Some(LoanYearTooEarly)
      else if rec.loanYear.Some? && rec.loanYear.value > yearAtLoad then Some(LoanYearInFuture)
      else None
    case LoanType => EnumRule(rec.loanType, LoanTypes, LoanTypeRequired, LoanTypeInvalid)
    case PaymentMode => EnumRule(rec.paymentMode, PaymentModes, PaymentModeRequired, PaymentModeInvalid)
    case Upi =>
      if HasText(rec.upi) && !UpiMatch(rec.upi.value) then Some(UpiInvalid) else None
    case Declare => DeclareRuleAsWritten(rec.declare)
  }

  /** What the schema demands of path `f`, stated over the languages of the
      patterns rather than the matchers. */
  ghost predicate FieldOk(f: Field, rec: Submission, yearAtLoad: int, emailOk: string -> bool) {
    match f
    case Name => HasText(rec.name) && Utf16Length(rec.name.value) <= NameMaxLength
    case Email => HasText(rec.email) && emailOk(rec.email.value)
    case Phone => rec.phone.Some? && PhoneSpec(rec.phone.value)
    case Address => rec.address.Some? ==> Utf16Length(rec.address.value) <= AddressMaxLength
    case Emi => true
    case Bank => rec.bank.Some? && rec.bank.value in Banks
    case StudentLoan => rec.studentLoan.Some? && rec.studentLoan.value in StudentLoanAnswers
    case LoanBank => rec.loanBank.Some? ==> Utf16Length(rec.loanBank.value) <= LoanBankMaxLength
    case LoanAmount => rec.loanAmount.Some? ==> rec.loanAmount.value >= 0.0
    case LoanYear => rec.loanYear.Some? ==> MinLoanYear <= rec.loanYear.value <= yearAtLoad
    case LoanType => rec.loanType.Some? && rec.loanType.value in LoanTypes
    case PaymentMode => rec.paymentMode.Some? && rec.paymentMode.value in PaymentModes
    case Upi => HasText(rec.upi) ==> UpiSpec(rec.upi.value)
    case Declare => true
  }

  /** What the hook demands: the student-loan details when the answer is
      "yes", and a UPI ID when paying by UPI. */
  ghost predicate ConditionsOk(rec: Submission) {
    && (rec.studentLoan == Some("yes") ==> HasText(rec.loanBank) && HasAmount(rec.loanAmount) && HasYear(rec.loanYear))
    && (rec.paymentMode == Some("upi") ==> HasText(rec.upi))
  }

  /** The document the schema and the hook accept. */
  ghost predicate Accepted(rec: Submission, yearAtLoad: int, emailOk: string -> bool) {
    && (forall f :: FieldOk(f, rec, yearAtLoad, emailOk))
    && ConditionsOk(rec)
  }

  /** Each path's rule fails exactly when its declarative demand is unmet. */
  lemma FieldCheckSpec(f: Field, rec: Submission, yearAtLoad: int, emailOk: string -> bool)
    ensures FieldCheck(f, rec, yearAtLoad, emailOk).None? <==> FieldOk(f, rec, yearAtLoad, emailOk)
  {
    match f
    case Phone =>
      if rec.phone.Some? { PhoneMatchSpec(rec.phone.value); }
    case Upi =>
      if rec.upi.Some? { UpiMatchSpec(rec.upi.value); }
    case _ =>
  }

  // ------------------------------------------------------ error sequences

  /** Some entry of `errs` is about path `f`. */
  predicate Mentions(errs: seq<FieldError>, f: Field) {
    exists i :: 0 <= i < |errs| && errs[i].field == f
  }

  /** Each entry's path comes strictly after the previous entry's path in
      schema order. */
  predicate Ordered(errs: seq<FieldError>) {
    forall i :: 0 < i < |errs| ==> Rank(errs[i - 1].field) < Rank(errs[i].field)
  }

  /** So entries of an ordered sequence are about distinct paths, in schema
      order. */
  lemma {:induction false} OrderedDistinct(errs: seq<FieldError>)
    requires Ordered(errs)
    ensures forall i, j :: 0 <= i < j < |errs| ==> Rank(errs[i].field) < Rank(errs[j].field)
  {
    if |errs| > 1 {
      var tail := errs[1..];
      assert Ordered(tail) by {
        forall i | 0 < i < |tail| ensures Rank(tail[i - 1].field) < Rank(tail[i].field) {
          assert tail[i - 1] == errs[i] && tail[i] == errs[i + 1];
        }
      }
      OrderedDistinct(tail);
      forall i, j | 0 <= i < j < |errs| ensures Rank(errs[i].field) < Rank(errs[j].field) {
        if i == 0 {
          if j > 1 { assert errs[1] == tail[0] && errs[j] == tail[j - 1]; }
        } else {
          assert errs[i] == tail[i - 1] && errs[j] == tail[j - 1];
        }
      }
    }
  }

  predicate RanksIncrease(fs: seq<Field>) {
    forall i, j :: 0 <= i < j < |fs| ==> Rank(fs[i]) < Rank(fs[j])
  }

  lemma MentionsAppend(a: seq<FieldError>, b: seq<FieldError>, f: Field)
    ensures Mentions(a + b, f) <==> Mentions(a, f) || Mentions(b, f)
  {
    if Mentions(a + b, f) {
      var i :| 0 <= i < |a + b| && (a + b)[i].field == f;
      if i >= |a| { assert b[i - |a|] == (a + b)[i]; }
    }
    if Mentions(a, f) {
      var i :| 0 <= i < |a| && a[i].field == f;
      assert (a + b)[i] == a[i];
    }
    if Mentions(b, f) {
      var i :| 0 <= i < |b| && b[i].field == f;
      assert (a + b)[|a| + i] == b[i];
    }
  }

  lemma OrderedPrepend(head: seq<FieldError>, rest: seq<FieldError>)
    requires |head| <= 1 && Ordered(rest)
    requires head != [] && rest != [] ==> Rank(head[0].field) < Rank(rest[0].field)
    ensures Ordered(head + rest)
  {
    var r := head + rest;
    forall i | 0 < i < |r| ensures Rank(r[i - 1].field) < Rank(r[i].field) {
      if i > |head| {
        assert r[i - 1] == rest[i - 1 - |head|] && r[i] == rest[i - |head|];
      }
    }
  }

  /** An entry when `cond` holds, nothing otherwise. */
  function EntryIf(cond: bool, e: FieldError): (r: seq<FieldError>)
    ensures |r| <= 1
    ensures forall f :: Mentions(r, f) <==> cond && e.field == f
    ensures r != [] ==> r[0] == e
  {
    if cond then
      assert [e][0] == e;
      [e]
    else []
  }

  /** The errors of paths `fs` under the per-path rule `check`: one entry per
      failing path, in the order of `fs`. */
  function CollectErrors(fs: seq<Field>, check: Field -> Option<string>): seq<FieldError> {
    if fs == [] then []
    else EntryIf(check(fs[0]).Some?, FieldError(fs[0], check(fs[0]).GetOr(""))) + CollectErrors(fs[1..], check)
  }

  /** Every collected entry carries the message of a failing path of `fs`. */
  lemma {:induction false} CollectErrorsSound(fs: seq<Field>, check: Field -> Option<string>)
    ensures forall i :: 0 <= i < |CollectErrors(fs, check)| ==>
      CollectErrors(fs, check)[i].field in fs && check(CollectErrors(fs, check)[i].field) == Some(CollectErrors(fs, check)[i].message)
  {
    if fs != [] {
      CollectErrorsSound(fs[1..], check);
      var head := EntryIf(check(fs[0]).Some?, FieldError(fs[0], check(fs[0]).GetOr("")));
      var rest := CollectErrors(fs[1..], check);
      var r := head + rest;
      assert CollectErrors(fs, check) == r;
      forall i | 0 <= i < |r| ensures r[i].field in fs && check(r[i].field) == Some(r[i].message) {
        if i >= |head| { assert r[i] == rest[i - |head|]; }
      }
    }
  }

  /** A path of `fs` is mentioned exactly when its rule fails. */
  lemma {:induction false} CollectErrorsComplete(fs: seq<Field>, check: Field -> Option<string>, f: Field)
    requires f in fs
    ensures Mentions(CollectErrors(fs, check), f) <==> check(f).Some?
  {
    var head := EntryIf(check(fs[0]).Some?, FieldError(fs[0], check(fs[0]).GetOr("")));
    var rest := CollectErrors(fs[1..], check);
    assert CollectErrors(fs, check) == head + rest;
    MentionsAppend(head, rest, f);
    CollectErrorsSound(fs[1..], check);
    if f == fs[0] {
      if Mentions(rest, f) {
        var i :| 0 <= i < |rest| && rest[i].field == f;
        assert check(f).Some?;
      }
    } else {
      CollectErrorsComplete(fs[1..], check, f);
    }
  }

  /** With `fs` in schema order, so are the collected entries. */
  lemma {:induction false} CollectErrorsOrdered(fs: seq<Field>, check: Field -> Option<string>)
    requires RanksIncrease(fs)
    ensures Ordered(CollectErrors(fs, check))
  {
    if fs != [] {
      RanksIncreaseTail(fs);
      CollectErrorsOrdered(fs[1..], check);
      CollectErrorsSound(fs[1..], check);
      var head := EntryIf(check(fs[0]).Some?, FieldError(fs[0], check(fs[0]).GetOr("")));
      var rest := CollectErrors(fs[1..], check);
      assert CollectErrors(fs, check) == head + rest;
      if head != [] && rest != [] {
        assert rest[0].field in fs[1..];
      }
      OrderedPrepend(head, rest);
    }
  }

  /** Dropping the first path keeps the ranks increasing, and every later path
      ranks above the first. */
  lemma RanksIncreaseTail(fs: seq<Field>)
    requires fs != [] && RanksIncrease(fs)
    ensures RanksIncrease(fs[1..])
    ensures forall f :: f in fs[1..] ==> Rank(fs[0]) < Rank(f)
  {
    forall f | f in fs[1..] ensures Rank(fs[0]) < Rank(f) {
      var k :| 0 <= k < |fs[1..]| && fs[1..][k] == f;
      assert fs[k + 1] == f;
    }
  }

  /** Rules that agree on every path of `fs` collect the same errors. */
  lemma {:induction false} CollectErrorsSameChecks(fs: seq<Field>, c1: Field -> Option<string>, c2: Field -> Option<string>)
    requires forall i :: 0 <= i < |fs| ==> c1(fs[i]) == c2(fs[i])
    ensures CollectErrors(fs, c1) == CollectErrors(fs, c2)
  {
    if fs != [] {
      assert c1(fs[0]) == c2(fs[0]);
      assert forall i :: 0 <= i < |fs[1..]| ==> c1(fs[1..][i]) == c2(fs[1..][i]) by {
        forall i | 0 <= i < |fs[1..]| ensures c1(fs[1..][i]) == c2(fs[1..][i]) {
          assert fs[1..][i] == fs[i + 1];
        }
      }
      CollectErrorsSameChecks(fs[1..], c1, c2);
    }
  }

  lemma SchemaOrderIncreases()
    ensures RanksIncrease(SchemaOrder)
  {
    forall i | 0 <= i < |SchemaOrder| ensures Rank(SchemaOrder[i]) == i { }
  }

  lemma SchemaOrderComplete()
    ensures forall f: Field :: f in SchemaOrder
  {
    forall f: Field ensures f in SchemaOrder {
      assert SchemaOrder[Rank(f)] == f;
    }
  }

  /** Every path's rule, as one function the collection can be handed. */
  function SchemaCheck(rec: Submission, yearAtLoad: int, emailOk: string -> bool): Field -> Option<string> {
    f => FieldCheck(f, rec, yearAtLoad, emailOk)
  }

  /** An entry is reported for a path exactly when its declarative demand is
      unmet. */
  lemma SchemaCheckMentions(rec: Submission, yearAtLoad: int, emailOk: string -> bool, f: Field)
    ensures Mentions(CollectErrors(SchemaOrder, SchemaCheck(rec, yearAtLoad, emailOk)), f)
      <==> !FieldOk(f, rec, yearAtLoad, emailOk)
  {
    SchemaOrderComplete();
    CollectErrorsComplete(SchemaOrder, SchemaCheck(rec, yearAtLoad, emailOk), f);
    FieldCheckSpec(f, rec, yearAtLoad, emailOk);
  }

  /** The schema's validators over every path: one entry per failing path,
      in declaration order, each naming a path whose rule fails. */
  function SchemaErrors(rec: Submission, yearAtLoad: int, emailOk: string -> bool): (r: seq<FieldError>)
    ensures Ordered(r)
    ensures forall i :: 0 <= i < |r| ==> FieldCheck(r[i].field, rec, yearAtLoad, emailOk) == Some(r[i].message)
    ensures forall f :: Mentions(r, f) <==> !FieldOk(f, rec, yearAtLoad, emailOk)
  {
    var check := SchemaCheck(rec, yearAtLoad, emailOk);
    SchemaOrderIncreases();
    CollectErrorsSound(SchemaOrder, check);
    CollectErrorsOrdered(SchemaOrder, check);
    assert forall f :: Mentions(CollectErrors(SchemaOrder, check), f) <==> !FieldOk(f, rec, yearAtLoad, emailOk) by {
      forall f ensures Mentions(CollectErrors(SchemaOrder, check), f) <==> !FieldOk(f, rec, yearAtLoad, emailOk) {
        SchemaCheckMentions(rec, yearAtLoad, emailOk, f);
      }
    }
    CollectErrors(SchemaOrder, check)
  }

  // ------------------------------------------------------------------ hook

  /** The `pre('validate')` hook: the missing student-loan details, each with
      its own error and in the order written, then the missing UPI ID. */
  function HookErrors(rec: Submission): seq<FieldError> {
    var yes := rec.studentLoan == Some("yes");
    EntryIf(yes && !HasText(rec.loanBank), FieldError(LoanBank, LoanBankMissing))
    + (EntryIf(yes && !HasAmount(rec.loanAmount), FieldError(LoanAmount, LoanAmountMissing))
    + (EntryIf(yes && !HasYear(rec.loanYear), FieldError(LoanYear, LoanYearMissing))
    + EntryIf(rec.paymentMode == Some("upi") && !HasText(rec.upi), FieldError(Upi, UpiMissing))))
  }

  /** The message the hook writes for a path: the student-loan details and
      the UPI ID each have their own; the hook writes nothing for the rest. */
  function HookMessage(f: Field): string {
    match f
    case LoanBank => LoanBankMissing
    case LoanAmount => LoanAmountMissing
    case LoanYear => LoanYearMissing
    case Upi => UpiMissing
    case _ => ""
  }

  /** Every entry carries the hook's message for its path. */
  predicate CarriesHookMessages(errs: seq<FieldError>) {
    forall i :: 0 <= i < |errs| ==> errs[i].message == HookMessage(errs[i].field)
  }

  lemma CarriesHookMessagesAppend(a: seq<FieldError>, b: seq<FieldError>)
    requires CarriesHookMessages(a) && CarriesHookMessages(b)
    ensures CarriesHookMessages(a + b)
  {
    forall i | 0 <= i < |a + b| ensures (a + b)[i].message == HookMessage((a + b)[i].field) {
      if i >= |a| { assert (a + b)[i] == b[i - |a|]; }
    }
  }

  /** Each of the hook's entries carries the message written for its path. */
  lemma {:induction false} HookErrorsMessages(rec: Submission)
    ensures CarriesHookMessages(HookErrors(rec))
  {
    var yes := rec.studentLoan == Some("yes");
    var a := EntryIf(yes && !HasText(rec.loanBank), FieldError(LoanBank, LoanBankMissing));
    var b := EntryIf(yes && !HasAmount(rec.loanAmount), FieldError(LoanAmount, LoanAmountMissing));
    var c := EntryIf(yes && !HasYear(rec.loanYear), FieldError(LoanYear, LoanYearMissing));
    var d := EntryIf(rec.paymentMode == Some("upi") && !HasText(rec.upi), FieldError(Upi, UpiMissing));
    CarriesHookMessagesAppend(c, d);
    CarriesHookMessagesAppend(b, c + d);
    CarriesHookMessagesAppend(a, b + (c + d));
  }

  /** Four optional entries about paths in increasing schema order: the
      result keeps that order and mentions a path exactly when its entry's
      condition holds. */
  lemma FourEntries(ca: bool, ea: FieldError, cb: bool, eb: FieldError, cc: bool, ec: FieldError, cd: bool, ed: FieldError)
    requires Rank(ea.field) < Rank(eb.field) < Rank(ec.field) < Rank(ed.field)
    ensures var r := EntryIf(ca, ea) + (EntryIf(cb, eb) + (EntryIf(cc, ec) + EntryIf(cd, ed)));
      && Ordered(r)
      && (forall f :: Mentions(r, f) <==> (ca && ea.field == f) || (cb && eb.field == f) || (cc && ec.field == f) || (cd && ed.field == f))
  {
    var a, b, c, d := EntryIf(ca, ea), EntryIf(cb, eb), EntryIf(cc, ec), EntryIf(cd, ed);
    forall f ensures Mentions(a + (b + (c + d)), f) <==> Mentions(a, f) || Mentions(b, f) || Mentions(c, f) || Mentions(d, f) {
      MentionsAppend(c, d, f);
      MentionsAppend(b, c + d, f);
      MentionsAppend(a, b + (c + d), f);
    }
    OrderedPrepend(c, d);
    OrderedPrepend(b, c + d);
    OrderedPrepend(a, b + (c + d));
  }

  /** The hook reports exactly the missing student-loan details (a loan
      amount or year of 0 counts as missing, being falsy) when the answer is
      "yes", and a missing UPI ID when paying by UPI; nothing else, and in
      the order written. */
  lemma HookErrorsSpec(rec: Submission)
    ensures var r := HookErrors(rec);
      && Ordered(r)
      && (forall f :: Mentions(r, f) <==>
            || (f == LoanBank && rec.studentLoan == Some("yes") && !HasText(rec.loanBank))
            || (f == LoanAmount && rec.studentLoan == Some("yes") && !HasAmount(rec.loanAmount))
            || (f == LoanYear && rec.studentLoan == Some("yes") && !HasYear(rec.loanYear))
            || (f == Upi && rec.paymentMode == Some("upi") && !HasText(rec.upi)))
  {
    var yes := rec.studentLoan == Some("yes");
    FourEntries(yes && !HasText(rec.loanBank), FieldError(LoanBank, LoanBankMissing),
                yes && !HasAmount(rec.loanAmount), FieldError(LoanAmount, LoanAmountMissing),
                yes && !HasYear(rec.loanYear), FieldError(LoanYear, LoanYearMissing),
                rec.paymentMode == Some("upi") && !HasText(rec.upi), FieldError(Upi, UpiMissing));
  }

  /** The hook is silent exactly when the conditional demands are met. */
  lemma HookErrorsEmpty(rec: Submission)
    ensures HookErrors(rec) == [] <==> ConditionsOk(rec)
  {
    HookErrorsSpec(rec);
    var r := HookErrors(rec);
    if r != [] { assert Mentions(r, r[0].field); }
    if !ConditionsOk(rec) {
      if rec.studentLoan == Some("yes") && !HasText(rec.loanBank) { assert Mentions(r, LoanBank); }
      else if rec.studentLoan == Some("yes") && !HasAmount(rec.loanAmount) { assert Mentions(r, LoanAmount); }
      else if rec.studentLoan == Some("yes") && !HasYear(rec.loanYear) { assert Mentions(r, LoanYear); }
      else { assert Mentions(r, Upi); }
    }
  }

  // -------------------------------------------------------------- validate

  /** Validating a document: the hook runs first and its errors come first,
      then the schema's validators. The result is empty exactly when the
      document is accepted. */
  function Validate(rec: Submission, yearAtLoad: int, emailOk: string -> bool): (r: seq<FieldError>)
    ensures r == [] <==> Accepted(rec, yearAtLoad, emailOk)
    ensures forall f :: Mentions(r, f) <==> Mentions(HookErrors(rec), f) || !FieldOk(f, rec, yearAtLoad, emailOk)
  {
    var hook := HookErrors(rec);
    var schema := SchemaErrors(rec, yearAtLoad, emailOk);
    HookErrorsEmpty(rec);
    assert forall f :: Mentions(hook + schema, f) <==> Mentions(hook, f) || Mentions(schema, f) by {
      forall f ensures Mentions(hook + schema, f) <==> Mentions(hook, f) || Mentions(schema, f) {
        MentionsAppend(hook, schema, f);
      }
    }
    assert schema == [] <==> forall f :: FieldOk(f, rec, yearAtLoad, emailOk) by {
      if schema != [] { assert Mentions(schema, schema[0].field); }
    }
    hook + schema
  }

  /** The entries of `Validate` one by one: the hook's entries come first,
      unchanged and in the order written; every entry carries either the
      message of its path's failing rule or, for a path the hook reports,
      the hook's message; and after the hook's entries the paths follow
      schema order. */
  lemma ValidateEntries(rec: Submission, yearAtLoad: int, emailOk: string -> bool)
    ensures var r := Validate(rec, yearAtLoad, emailOk);
      var hook := HookErrors(rec);
      && |hook| <= |r| && r[..|hook|] == hook
      && (hook != [] ==> r[0] == hook[0])
      && Ordered(r[|hook|..])
      && (forall i :: 0 <= i < |r| ==>
            || FieldCheck(r[i].field, rec, yearAtLoad, emailOk) == Some(r[i].message)
            || (Mentions(hook, r[i].field) && r[i].message == HookMessage(r[i].field)))
  {
    var hook := HookErrors(rec);
    var schema := SchemaErrors(rec, yearAtLoad, emailOk);
    var r := Validate(rec, yearAtLoad, emailOk);
    assert r == hook + schema;
    assert r[..|hook|] == hook && r[|hook|..] == schema;
    HookErrorsMessages(rec);
    forall i | 0 <= i < |r|
      ensures || FieldCheck(r[i].field, rec, yearAtLoad, emailOk) == Some(r[i].message)
              || (Mentions(hook, r[i].field) && r[i].message == HookMessage(r[i].field))
    {
      if i < |hook| {
        assert r[i] == hook[i];
        assert Mentions(hook, hook[i].field);
      } else {
        assert r[i] == schema[i - |hook|];
      }
    }
  }

  /** Paying by UPI without a UPI ID, when the student-loan details are not
      missing, puts the hook's UPI entry first. */
  lemma UpiMissingReportedFirst(rec: Submission, yearAtLoad: int, emailOk: string -> bool)
    requires rec.paymentMode == Some("upi") && !HasText(rec.upi)
    requires rec.studentLoan == Some("yes") ==> HasText(rec.loanBank) && HasAmount(rec.loanAmount) && HasYear(rec.loanYear)
    ensures var r := Validate(rec, yearAtLoad, emailOk); r != [] && r[0] == FieldError(Upi, UpiMissing)
  {
    assert HookErrors(rec) == [FieldError(Upi, UpiMissing)];
    ValidateEntries(rec, yearAtLoad, emailOk);
  }

  /** An ordered error list that mentions exactly the paths failing `ok`,
      when `g` is the only such path, has exactly one entry, for `g`. */
  lemma SingleMention(r: seq<FieldError>, g: Field, ok: Field -> bool)
    requires Ordered(r)
    requires forall f :: Mentions(r, f) <==> !ok(f)
    requires forall f :: ok(f) <==> f != g
    ensures |r| == 1 && r[0].field == g
  {
    assert Mentions(r, g);
    assert Mentions(r, r[0].field);
    if |r| >= 2 {
      assert Mentions(r, r[1].field);
      assert false;
    }
  }

  /** A document the hook accepts and whose only failing path is `g` gets a
      single entry: `g` with the message of its failing rule. */
  lemma OnlyFailingPath(rec: Submission, yearAtLoad: int, emailOk: string -> bool, g: Field)
    requires HookErrors(rec) == []
    requires forall f :: FieldOk(f, rec, yearAtLoad, emailOk) <==> f != g
    ensures FieldCheck(g, rec, yearAtLoad, emailOk).Some?
    ensures Validate(rec, yearAtLoad, emailOk) == [FieldError(g, FieldCheck(g, rec, yearAtLoad, emailOk).value)]
  {
    var schema := SchemaErrors(rec, yearAtLoad, emailOk);
    SchemaSingleEntry(rec, yearAtLoad, emailOk, g);
    assert Validate(rec, yearAtLoad, emailOk) == [] + schema;
  }

  /** The schema's share of `OnlyFailingPath`. */
  lemma SchemaSingleEntry(rec: Submission, yearAtLoad: int, emailOk: string -> bool, g: Field)
    requires forall f :: FieldOk(f, rec, yearAtLoad, emailOk) <==> f != g
    ensures FieldCheck(g, rec, yearAtLoad, emailOk).Some?
    ensures SchemaErrors(rec, yearAtLoad, emailOk) == [FieldError(g, FieldCheck(g, rec, yearAtLoad, emailOk).value)]
  {
    var schema := SchemaErrors(rec, yearAtLoad, emailOk);
    SchemaMentionsOnly(rec, yearAtLoad, emailOk, g);
    assert schema == [schema[0]];
  }

  lemma SchemaMentionsOnly(rec: Submission, yearAtLoad: int, emailOk: string -> bool, g: Field)
    requires forall f :: FieldOk(f, rec, yearAtLoad, emailOk) <==> f != g
    ensures |SchemaErrors(rec, yearAtLoad, emailOk)| == 1 && SchemaErrors(rec, yearAtLoad, emailOk)[0].field == g
  {
    SingleMention(SchemaErrors(rec, yearAtLoad, emailOk), g, f => FieldOk(f, rec, yearAtLoad, emailOk));
  }

  /** Changing only the loan year leaves every other path's demand as it was. */
  lemma OtherPathsIgnoreYear(rec: Submission, year: Option<int>, yearAtLoad: int, emailOk: string -> bool, f: Field)
    requires f != LoanYear
    ensures FieldOk(f, rec.(loanYear := year), yearAtLoad, emailOk) == FieldOk(f, rec, yearAtLoad, emailOk)
  {
  }

  /** A loan year one past the year the schema was built, on a "yes"
      document that would otherwise be accepted, is the only error, with the
      future-year message. */
  lemma FutureLoanYearReported(rec: Submission, yearAtLoad: int, emailOk: string -> bool)
    requires rec.studentLoan == Some("yes") && rec.loanYear == Some(yearAtLoad + 1)
    requires Accepted(rec.(loanYear := Some(yearAtLoad)), yearAtLoad, emailOk)
    ensures Validate(rec, yearAtLoad, emailOk) == [FieldError(LoanYear, LoanYearInFuture)]
  {
    var good := rec.(loanYear := Some(yearAtLoad));
    assert FieldOk(LoanYear, good, yearAtLoad, emailOk);
    assert ConditionsOk(good);
    forall f ensures FieldOk(f, rec, yearAtLoad, emailOk) <==> f != LoanYear {
      if f != LoanYear {
        assert FieldOk(f, good, yearAtLoad, emailOk);
        OtherPathsIgnoreYear(good, rec.loanYear, yearAtLoad, emailOk, f);
        assert good.(loanYear := rec.loanYear) == rec;
      }
    }
    HookErrorsEmpty(rec);
    OnlyFailingPath(rec, yearAtLoad, emailOk, LoanYear);
  }

  // ------------------------------------------------------------ properties

  /** An accepted document meets every bound of the schema: the fixed value
      lists, the lengths, the loan year window, a non-negative amount, a
      phone and UPI ID of the right shape, and the conditional details. The
      terms need not have been accepted (see `DeclareOffPassesAsWritten`). */
  lemma AcceptedBounds(rec: Submission, yearAtLoad: int, emailOk: string -> bool)
    requires Validate(rec, yearAtLoad, emailOk) == []
    ensures rec.bank.Some? && rec.bank.value in Banks
    ensures rec.studentLoan.Some? && rec.studentLoan.value in StudentLoanAnswers
    ensures rec.loanType.Some? && rec.loanType.value in LoanTypes
    ensures rec.paymentMode.Some? && rec.paymentMode.value in PaymentModes
    ensures rec.name.Some? && 0 < |rec.name.value| <= NameMaxLength
    ensures rec.address.Some? ==> |rec.address.value| <= AddressMaxLength
    ensures rec.loanBank.Some? ==> |rec.loanBank.value| <= LoanBankMaxLength
    ensures rec.loanAmount.Some? ==> rec.loanAmount.value >= 0.0
    ensures rec.loanYear.Some? ==> MinLoanYear <= rec.loanYear.value <= yearAtLoad
    ensures rec.phone.Some? && PhoneSpec(rec.phone.value)
    ensures HasText(rec.upi) ==> UpiSpec(rec.upi.value)
    ensures rec.studentLoan == Some("yes") ==> HasText(rec.loanBank) && HasAmount(rec.loanAmount) && HasYear(rec.loanYear)
    ensures rec.paymentMode == Some("upi") ==> HasText(rec.upi)
  {
    AcceptedMeetsBounds(rec, yearAtLoad, emailOk);
  }

  lemma AcceptedMeetsBounds(rec: Submission, yearAtLoad: int, emailOk: string -> bool)
    requires Accepted(rec, yearAtLoad, emailOk)
    ensures rec.bank.Some? && rec.bank.value in Banks
    ensures rec.studentLoan.Some? && rec.studentLoan.value in StudentLoanAnswers
    ensures rec.loanType.Some? && rec.loanType.value in LoanTypes
    ensures rec.paymentMode.Some? && rec.paymentMode.value in PaymentModes
    ensures rec.name.Some? && 0 < |rec.name.value| <= NameMaxLength
    ensures rec.address.Some? ==> |rec.address.value| <= AddressMaxLength
    ensures rec.loanBank.Some? ==> |rec.loanBank.value| <= LoanBankMaxLength
    ensures rec.loanAmount.Some? ==> rec.loanAmount.value >= 0.0
    ensures rec.loanYear.Some? ==> MinLoanYear <= rec.loanYear.value <= yearAtLoad
    ensures rec.phone.Some? && PhoneSpec(rec.phone.value)
    ensures HasText(rec.upi) ==> UpiSpec(rec.upi.value)
  {
    assert FieldOk(Bank, rec, yearAtLoad, emailOk);
    assert FieldOk(StudentLoan, rec, yearAtLoad, emailOk);
    assert FieldOk(LoanType, rec, yearAtLoad, emailOk);
    assert FieldOk(PaymentMode, rec, yearAtLoad, emailOk);
    assert FieldOk(Name, rec, yearAtLoad, emailOk);
    assert FieldOk(Address, rec, yearAtLoad, emailOk);
    assert FieldOk(LoanBank, rec, yearAtLoad, emailOk);
    assert FieldOk(LoanAmount, rec, yearAtLoad, emailOk);
    assert FieldOk(LoanYear, rec, yearAtLoad, emailOk);
    assert FieldOk(Phone, rec, yearAtLoad, emailOk);
    assert FieldOk(Upi, rec, yearAtLoad, emailOk);
  }

  /** The phone is checked as given: one with surrounding whitespace is
      reported, whatever its digits. */
  lemma PaddedPhoneRejected(rec: Submission, yearAtLoad: int, emailOk: string -> bool)
    requires rec.phone.Some? && !Unpadded(rec.phone.value)
    ensures Mentions(Validate(rec, yearAtLoad, emailOk), Phone)
    ensures FieldCheck(Phone, rec, yearAtLoad, emailOk) == Some(if rec.phone.value == "" then PhoneRequired else PhoneInvalid)
  {
    if PhoneSpec(rec.phone.value) { PhoneSpecUnpadded(rec.phone.value); }
    PhoneMatchSpec(rec.phone.value);
  }

  /** An accepted non-empty UPI ID holds exactly one '@'. */
  lemma AcceptedUpiSingleAt(rec: Submission, yearAtLoad: int, emailOk: string -> bool)
    requires HasText(rec.upi) && !Mentions(Validate(rec, yearAtLoad, emailOk), Upi)
    ensures multiset(rec.upi.value)['@'] == 1
  {
    assert FieldOk(Upi, rec, yearAtLoad, emailOk);
    UpiSingleAt(rec.upi.value);
  }

  /** A non-empty UPI ID of the wrong shape is reported under any payment
      mode. */
  lemma BadUpiRejected(rec: Submission, yearAtLoad: int, emailOk: string -> bool)
    requires HasText(rec.upi) && !UpiSpec(rec.upi.value)
    ensures Mentions(Validate(rec, yearAtLoad, emailOk), Upi)
  {
    assert !FieldOk(Upi, rec, yearAtLoad, emailOk);
  }

  /** Unless the student-loan answer is "yes", a document whose loan details
      are absent draws no error on any of them. */
  lemma NoLoanErrorsUnlessYes(rec: Submission, yearAtLoad: int, emailOk: string -> bool)
    requires rec.studentLoan != Some("yes")
    requires rec.loanBank.None? && rec.loanAmount.None? && rec.loanYear.None?
    ensures !Mentions(Validate(rec, yearAtLoad, emailOk), LoanBank)
    ensures !Mentions(Validate(rec, yearAtLoad, emailOk), LoanAmount)
    ensures !Mentions(Validate(rec, yearAtLoad, emailOk), LoanYear)
  {
    HookErrorsSpec(rec);
    assert FieldOk(LoanBank, rec, yearAtLoad, emailOk);
    assert FieldOk(LoanAmount, rec, yearAtLoad, emailOk);
    assert FieldOk(LoanYear, rec, yearAtLoad, emailOk);
  }

  /** Under any payment mode but "upi" the hook adds nothing about the UPI
      ID; under "upi" it adds its error exactly when the ID is empty. */
  lemma HookUpiOnlyInUpiMode(rec: Submission)
    ensures rec.paymentMode != Some("upi") ==> !Mentions(HookErrors(rec), Upi)
    ensures rec.paymentMode == Some("upi") ==> (Mentions(HookErrors(rec), Upi) <==> !HasText(rec.upi))
  {
    HookErrorsSpec(rec);
  }

  /** A loan amount of 0 is reported as missing when the answer is "yes",
      and the error comes right after any missing loan bank. */
  lemma ZeroLoanAmountMissing(rec: Submission)
    requires rec.studentLoan == Some("yes") && rec.loanAmount == Some(0.0)
    ensures Mentions(HookErrors(rec), LoanAmount)
    ensures HookErrors(rec)[if HasText(rec.loanBank) then 0 else 1] == FieldError(LoanAmount, LoanAmountMissing)
  {
    HookErrorsSpec(rec);
  }

  /** As written, the `required` rule never fires on the Boolean path: a
      form sent with `declare` set to "off" (or without it) is recorded with
      the terms declined, and the declaration has no bearing on validation:
      the same errors come back whether the terms were accepted or not. */
  lemma DeclareOffPassesAsWritten(rec: Submission, yearAtLoad: int, emailOk: string -> bool)
    ensures SetDeclare(JsString("off")) == false && SetDeclare(Undefined) == false
    ensures !Mentions(Validate(rec, yearAtLoad, emailOk), Declare)
    ensures Validate(rec.(declare := false), yearAtLoad, emailOk) == Validate(rec, yearAtLoad, emailOk)
  {
    var off := rec.(declare := false);
    assert HookErrors(off) == HookErrors(rec);
    SchemaErrorsIgnoreDeclare(rec, false, yearAtLoad, emailOk);
    HookErrorsSpec(rec);
    assert FieldOk(Declare, rec, yearAtLoad, emailOk);
  }

  /** No path's rule but the declaration's reads the declaration, and that
      one never fires: the schema's errors do not depend on it. */
  lemma SchemaErrorsIgnoreDeclare(rec: Submission, declare: bool, yearAtLoad: int, emailOk: string -> bool)
    ensures SchemaErrors(rec.(declare := declare), yearAtLoad, emailOk) == SchemaErrors(rec, yearAtLoad, emailOk)
  {
    var c1 := SchemaCheck(rec.(declare := declare), yearAtLoad, emailOk);
    var c2 := SchemaCheck(rec, yearAtLoad, emailOk);
    forall i | 0 <= i < |SchemaOrder| ensures c1(SchemaOrder[i]) == c2(SchemaOrder[i]) {
      FieldCheckIgnoresDeclare(SchemaOrder[i], rec, declare, yearAtLoad, emailOk);
    }
    CollectErrorsSameChecks(SchemaOrder, c1, c2);
  }

  lemma FieldCheckIgnoresDeclare(f: Field, rec: Submission, declare: bool, yearAtLoad: int, emailOk: string -> bool)
    ensures FieldCheck(f, rec.(declare := declare), yearAtLoad, emailOk) == FieldCheck(f, rec, yearAtLoad, emailOk)
  {
  }

  /** Validation with the intended `declare` rule. Being the last path of the
      schema, the declaration's entry would come after every other one, so
      these are the errors of `Validate` followed by that entry. */
  function ValidateIntended(rec: Submission, yearAtLoad: int, emailOk: string -> bool): (r: seq<FieldError>)
    ensures r == [] <==> Accepted(rec, yearAtLoad, emailOk) && rec.declare
    ensures forall f :: Mentions(r, f) <==>
      Mentions(HookErrors(rec), f) || !FieldOk(f, rec, yearAtLoad, emailOk) || (f == Declare && !rec.declare)
  {
    var errs := Validate(rec, yearAtLoad, emailOk);
    var tail := EntryIf(DeclareRule(rec.declare).Some?, FieldError(Declare, DeclareRequired));
    assert forall f :: Mentions(errs + tail, f) <==> Mentions(errs, f) || Mentions(tail, f) by {
      forall f ensures Mentions(errs + tail, f) <==> Mentions(errs, f) || Mentions(tail, f) {
        MentionsAppend(errs, tail, f);
      }
    }
    assert |errs + tail| == |errs| + |tail|;
    errs + tail
  }

  /** With the intended rule, a document declining the terms is refused,
      its last entry being the declaration's, while the rule as written
      lets it through; on a document accepting them the two agree. */
  lemma DeclinedTermsRejected(rec: Submission, yearAtLoad: int, emailOk: string -> bool)
    ensures !rec.declare ==> Mentions(ValidateIntended(rec, yearAtLoad, emailOk), Declare)
    ensures !rec.declare ==>
      ValidateIntended(rec, yearAtLoad, emailOk)[|ValidateIntended(rec, yearAtLoad, emailOk)| - 1] == FieldError(Declare, DeclareRequired)
    ensures rec.declare ==> ValidateIntended(rec, yearAtLoad, emailOk) == Validate(rec, yearAtLoad, emailOk)
  {
    var errs := Validate(rec, yearAtLoad, emailOk);
    var tail := EntryIf(DeclareRule(rec.declare).Some?, FieldError(Declare, DeclareRequired));
    assert ValidateIntended(rec, yearAtLoad, emailOk) == errs + tail;
    if rec.declare { assert errs + tail == errs; }
  }
}

=== FILE: intake.dfy ===
/** The `POST /forms` handler of server.js: the request body is renamed into
    the object given to `new Form(...)`, the document is validated and
    stored, and the reply is a small page whose `alert` shows either the
    confirmation or the first error message with its double quotes escaped. */
module Intake {
  import opened Wrappers
  import opened Text
  import opened JsValues
  import opened Patterns
  import opened Forms

  /** A URL-encoded form body: field name to value. */
  type Body = map<string, string>

  function Lookup(body: Body, key: string): (r: Option<string>)
    ensures r.Some? <==> key in body
    ensures r.Some? ==> r.value == body[key]
  {
    if key in body then Some(body[key]) else None
  }

  /** Whether the body answers "yes" to the student-loan question; only then
      are the loan details taken from it. */
  predicate SaysYes(body: Body) {
    Lookup(body, "student-loan") == Some("yes")
  }

  /** The `formData` object built from the body. */
  function MapRequest(body: Body): (data: FormData)
    ensures data.name == Lookup(body, "name") && data.email == Lookup(body, "email")
    ensures data.phone == Lookup(body, "phone") && data.address == Lookup(body, "address")
    ensures data.emi == Lookup(body, "emi") && data.bank == Lookup(body, "bank")
    ensures data.studentLoan == Lookup(body, "student-loan")
    ensures data.loanType == Lookup(body, "loanType") && data.paymentMode == Lookup(body, "paymentMode")
    ensures data.upi == Lookup(body, "upi")
    ensures data.declare == FromField(Lookup(body, "declare"))
    ensures !SaysYes(body) ==> data.loanBank.None? && data.loanAmount.Undefined? && data.loanYear.Undefined?
    ensures SaysYes(body) ==> data.loanBank == Lookup(body, "loan-bank")
    ensures SaysYes(body) ==> data.loanAmount == ParseFloat(FromField(Lookup(body, "loan-amount")))
    ensures SaysYes(body) ==> data.loanYear == ParseInt(FromField(Lookup(body, "loan-year")))
  {
    var yes := SaysYes(body);
    FormData(
      Lookup(body, "name"), Lookup(body, "email"), Lookup(body, "phone"),
      Lookup(body, "address"), Lookup(body, "emi"), Lookup(body, "bank"),
      Lookup(body, "student-loan"),
      if yes then Lookup(body, "loan-bank") else None,
      if yes then ParseFloat(FromField(Lookup(body, "loan-amount"))) else Undefined,
      if yes then ParseInt(FromField(Lookup(body, "loan-year"))) else Undefined,
      Lookup(body, "loanType"), Lookup(body, "paymentMode"), Lookup(body, "upi"),
      FromField(Lookup(body, "declare")))
  }

  /** The body keys the handler reads. */
  const MappedKeys: set<string> :=
    {"name", "email", "phone", "address", "emi", "bank", "student-loan",
     "loan-bank", "loan-amount", "loan-year", "loanType", "paymentMode", "upi", "declare"}

  /** The two bodies agree on key `k`. */
  predicate AgreeOn(b1: Body, b2: Body, k: string) {
    Lookup(b1, k) == Lookup(b2, k)
  }

  /** Keys outside `MappedKeys` have no influence on the record: nothing else
      is added to it. */
  lemma MapRequestReadsOnlyMappedKeys(b1: Body, b2: Body)
    requires forall k :: k in MappedKeys ==> AgreeOn(b1, b2, k)
    ensures MapRequest(b1) == MapRequest(b2)
  {
    assert AgreeOn(b1, b2, "name") && AgreeOn(b1, b2, "email") && AgreeOn(b1, b2, "phone");
    assert AgreeOn(b1, b2, "address") && AgreeOn(b1, b2, "emi") && AgreeOn(b1, b2, "bank");
    assert AgreeOn(b1, b2, "student-loan") && AgreeOn(b1, b2, "loan-bank");
    assert AgreeOn(b1, b2, "loan-amount") && AgreeOn(b1, b2, "loan-year");
    assert AgreeOn(b1, b2, "loanType") && AgreeOn(b1, b2, "paymentMode");
    assert AgreeOn(b1, b2, "upi") && AgreeOn(b1, b2, "declare");
  }

  /** Unless the answer is exactly "yes", the loan keys of the body are
      ignored: two bodies differing only there give the same record. */
  lemma LoanKeysIgnoredUnlessYes(b1: Body, b2: Body)
    requires !SaysYes(b1)
    requires forall k :: k in MappedKeys && k !in {"loan-bank", "loan-amount", "loan-year"} ==> AgreeOn(b1, b2, k)
    ensures MapRequest(b1) == MapRequest(b2)
  {
    assert AgreeOn(b1, b2, "name") && AgreeOn(b1, b2, "email") && AgreeOn(b1, b2, "phone");
    assert AgreeOn(b1, b2, "address") && AgreeOn(b1, b2, "emi") && AgreeOn(b1, b2, "bank");
    assert AgreeOn(b1, b2, "student-loan");
    assert AgreeOn(b1, b2, "loanType") && AgreeOn(b1, b2, "paymentMode");
    assert AgreeOn(b1, b2, "upi") && AgreeOn(b1, b2, "declare");
  }

  // -------------------------------------------------------------- replies

  const SuccessMessage := "Thank you! Your form has been submitted."
  const DefaultMessage := "Failed to submit form. Please check your inputs and try again."

  /** What `form.save()` rejected with: `errors` is the `errors` property of
      the thrown value, listed as `Object.values` lists it (one message per
      entry), or `None` when it has none, as for a storage failure. */
  datatype SaveFailure = SaveFailure(errors: Option<seq<string>>)

  /** The message the handler reports: the first entry's message unless it
      is empty, the default when there are no errors. `None` when the
      errors object is empty, where reading `.message` of `undefined`
      throws inside the `catch`. */
  function FailureMessage(e: SaveFailure): (r: Option<string>)
    ensures e.errors.None? ==> r == Some(DefaultMessage)
    ensures e.errors.Some? && e.errors.value != [] ==>
      r == Some(if e.errors.value[0] != "" then e.errors.value[0] else DefaultMessage)
    ensures r.None? <==> e.errors == Some([])
    ensures r.Some? ==> r.value != ""
  {
    match e.errors
    case None => Some(DefaultMessage)
    case Some(errs) =>
      if errs == [] then None
      else if errs[0] != "" then Some(errs[0])
      else Some(DefaultMessage)
  }

  /** Every double quote in `r` is preceded by a backslash. */
  predicate QuotesEscaped(r: string) {
    forall i :: 0 <= i < |r| && r[i] == '"' ==> 0 < i && r[i - 1] == '\\'
  }

  /** `message.replace(/"/g, '\\"')`: a backslash is put before every double
      quote. */
  function EscapeQuotes(s: string): (r: string)
    ensures |r| == |s| + multiset(s)['"']
    ensures QuotesEscaped(r)
  {
    if s == [] then []
    else
      var rest := EscapeQuotes(s[1..]);
      assert s == [s[0]] + s[1..];
      var h := if s[0] == '"' then "\\\"" else [s[0]];
      EscapedPrepend(h, rest);
      h + rest
  }

  /** Putting an escaped quote or a single non-quote character in front keeps
      every quote escaped. */
  lemma EscapedPrepend(h: string, rest: string)
    requires h == "\\\"" || (|h| == 1 && h[0] != '"')
    requires QuotesEscaped(rest)
    ensures QuotesEscaped(h + rest)
  {
    var r := h + rest;
    forall i | 0 <= i < |r| && r[i] == '"' ensures 0 < i && r[i - 1] == '\\' {
      if i >= |h| { assert r[i] == rest[i - |h|]; }
      if i > |h| { assert r[i - 1] == rest[i - 1 - |h|]; }
    }
  }

  /** Undoing the escaping: every `\"` becomes `"`, every other character
      stays. */
  function Unescape(t: string): string
    decreases |t|
  {
    if t == [] then []
    else if |t| >= 2 && t[0] == '\\' && t[1] == '"' then "\"" + Unescape(t[2..])
    else [t[0]] + Unescape(t[1..])
  }

  /** Escaping loses nothing: for every message, including ones with
      backslashes or line breaks, undoing it gives the message back, so the
      only change is the backslash put before each double quote. */
  lemma {:induction false} UnescapeEscape(s: string)
    ensures Unescape(EscapeQuotes(s)) == s
  {
    if s != [] {
      UnescapeEscape(s[1..]);
      var rest := EscapeQuotes(s[1..]);
      var t := EscapeQuotes(s);
      if s[0] == '"' {
        assert t == "\\\"" + rest;
        assert t[2..] == rest;
      } else {
        assert t == [s[0]] + rest;
        assert t[1..] == rest;
        assert |t| >= 2 ==> t[1] == rest[0] && rest[0] != '"';
      }
      assert s == [s[0]] + s[1..];
    }
  }

  /** Characters that can sit unescaped in a double-quoted JavaScript string
      literal without ending it or changing meaning. */
  predicate LiteralSafe(c: char) {
    c != '\\' && !IsLineTerminator(c)
  }

  /** How a browser reads the text between the quotes of `alert("...")`,
      for the escapes `\"`, `\'` and `\\`; `None` when the text would end
      the literal early or uses another escape. */
  function ReadLiteral(t: string): Option<string>
    decreases |t|
  {
    if t == [] then Some([])
    else if t[0] == '"' || IsLineTerminator(t[0]) then None
    else if t[0] == '\\' then
      if |t| >= 2 && (t[1] == '"' || t[1] == '\'' || t[1] == '\\') then
        match ReadLiteral(t[2..])
        case Some(rest) => Some([t[1]] + rest)
        case None => None
      else None
    else
      match ReadLiteral(t[1..])
      case Some(rest) => Some([t[0]] + rest)
      case None => None
  }

  /** The alert shows exactly the message that was escaped, for any message
      without backslashes or line breaks: every double quote comes back and
      no other character changes. */
  lemma {:induction false} EscapeQuotesRoundTrip(s: string)
    requires forall i :: 0 <= i < |s| ==> LiteralSafe(s[i])
    ensures ReadLiteral(EscapeQuotes(s)) == Some(s)
  {
    if s != [] {
      EscapeQuotesRoundTrip(s[1..]);
      var t := EscapeQuotes(s);
      if s[0] == '"' {
        assert t == "\\\"" + EscapeQuotes(s[1..]);
        assert t[2..] == EscapeQuotes(s[1..]);
      } else {
        assert t == [s[0]] + EscapeQuotes(s[1..]);
        assert t[1..] == EscapeQuotes(s[1..]);
      }
      assert s == [s[0]] + s[1..];
    }
  }

  /** What the handler sends back: a status and the text inside `alert`, or
      an exception escaping the `catch` block. */
  datatype Response = Reply(status: nat, alert: string) | Unhandled

  /** The `catch` block's reply for a failure: a 400 whose alert is never
      empty and, for a message a string literal can hold, shows exactly the
      failure's message; an exception escapes only for an empty `errors`. */
  function FailureResponse(e: SaveFailure): (r: Response)
    ensures r.Unhandled? <==> e.errors == Some([])
    ensures r.Reply? ==> r.status == 400 && r.alert != ""
    ensures r.Reply? && (forall i :: 0 <= i < |FailureMessage(e).value| ==> LiteralSafe(FailureMessage(e).value[i])) ==>
      ReadLiteral(r.alert) == FailureMessage(e)
  {
    match FailureMessage(e)
    case Some(m) => EscapedReadsBack(m); Reply(400, EscapeQuotes(m))
    case None => Unhandled
  }

  /** `EscapeQuotesRoundTrip` for the messages it covers. */
  lemma EscapedReadsBack(s: string)
    ensures (forall i :: 0 <= i < |s| ==> LiteralSafe(s[i])) ==> ReadLiteral(EscapeQuotes(s)) == Some(s)
  {
    if forall i :: 0 <= i < |s| ==> LiteralSafe(s[i]) { EscapeQuotesRoundTrip(s); }
  }

  /** `form.save()`: the document is validated and, when valid, stored;
      `storeAvailable` says whether the database takes it. */
  function Save(rec: Submission, yearAtLoad: int, emailOk: string -> bool, storeAvailable: bool): (r: Result)
    ensures r.Stored? <==> storeAvailable && Accepted(rec, yearAtLoad, emailOk)
    ensures r.Stored? ==> r.rec == rec
    ensures !Accepted(rec, yearAtLoad, emailOk) ==>
      r.Failed? && r.failure.errors == Some(Messages(Validate(rec, yearAtLoad, emailOk)))
    ensures r.Failed? && Accepted(rec, yearAtLoad, emailOk) ==> r.failure.errors.None?
  {
    var errs := Validate(rec, yearAtLoad, emailOk);
    if errs != [] then Failed(SaveFailure(Some(Messages(errs))))
    else if storeAvailable then Stored(rec)
    else Failed(SaveFailure(None))
  }

  datatype Result = Stored(rec: Submission) | Failed(failure: SaveFailure)

  /** The messages of a validation error, in order. */
  function Messages(errs: seq<FieldError>): (r: seq<string>)
    ensures |r| == |errs|
    ensures forall i :: 0 <= i < |errs| ==> r[i] == errs[i].message
  {
    seq(|errs|, i requires 0 <= i < |errs| => errs[i].message)
  }

  /** The handler once the record is built: the reply, and the document
      stored if any. */
  function Respond(rec: Submission, yearAtLoad: int, emailOk: string -> bool, storeAvailable: bool): (r: (Response, Option<Submission>))
    ensures r.0.Reply?
    ensures r.0.status == 200 <==> r.1.Some?
    ensures r.0.status == 200 ==> r.0.alert == SuccessMessage
    ensures r.0.status != 200 ==> r.0.status == 400
    ensures r.1.Some? ==> r.1.value == rec && Accepted(rec, yearAtLoad, emailOk)
    ensures r.1.Some? <==> storeAvailable && Accepted(rec, yearAtLoad, emailOk)
  {
    match Save(rec, yearAtLoad, emailOk, storeAvailable)
    case Stored(rec) => (Reply(200, SuccessMessage), Some(rec))
    case Failed(e) => (FailureResponse(e), None)
  }

  /** The whole handler: the reply, and the document stored if any. */
  function HandlePost(body: Body, yearAtLoad: int, emailOk: string -> bool, storeAvailable: bool): (r: (Response, Option<Submission>))
    ensures r.0.Reply?
    ensures r.0.status == 200 <==> r.1.Some?
    ensures r.0.status == 200 ==> r.0.alert == SuccessMessage
    ensures r.0.status != 200 ==> r.0.status == 400
    ensures r.1.Some? ==> r.1.value == New(MapRequest(body)) && Accepted(r.1.value, yearAtLoad, emailOk)
    ensures r.1.Some? <==> storeAvailable && Accepted(New(MapRequest(body)), yearAtLoad, emailOk)
  {
    Respond(New(MapRequest(body)), yearAtLoad, emailOk, storeAvailable)
  }

  // ----------------------------------------------------------- properties

  /** A rejected document is answered with its first error message,
      escaped; a storage failure with the default message. */
  lemma RejectionMessage(rec: Submission, yearAtLoad: int, emailOk: string -> bool, storeAvailable: bool)
    ensures var errs := Validate(rec, yearAtLoad, emailOk);
      var r := Respond(rec, yearAtLoad, emailOk, storeAvailable);
      && (errs != [] ==> r.0 == Reply(400, EscapeQuotes(if errs[0].message != "" then errs[0].message else DefaultMessage)))
      && (errs == [] && !storeAvailable ==> r.0 == Reply(400, EscapeQuotes(DefaultMessage)))
  {
    var errs := Validate(rec, yearAtLoad, emailOk);
    if errs != [] {
      var e := SaveFailure(Some(Messages(errs)));
      assert Save(rec, yearAtLoad, emailOk, storeAvailable) == Failed(e);
      assert Messages(errs)[0] == errs[0].message;
    } else if !storeAvailable {
      assert Save(rec, yearAtLoad, emailOk, storeAvailable) == Failed(SaveFailure(None));
    }
  }

  /** A message without double quotes is sent as it is. */
  lemma {:induction false} EscapeQuotesNoQuotes(s: string)
    requires '"' !in s
    ensures EscapeQuotes(s) == s
  {
    if s != [] {
      assert s[0] != '"' && '"' !in s[1..];
      EscapeQuotesNoQuotes(s[1..]);
      assert s == [s[0]] + s[1..];
    }
  }

  /** The hook's UPI message holds no double quote, so it is sent as it is. */
  lemma UpiMissingUnescaped()
    ensures EscapeQuotes(UpiMissing) == UpiMissing
  {
    EscapeQuotesNoQuotes(UpiMissing);
  }

  /** Nor does the future-year message. */
  lemma LoanYearInFutureUnescaped()
    ensures EscapeQuotes(LoanYearInFuture) == LoanYearInFuture
  {
    EscapeQuotesNoQuotes(LoanYearInFuture);
  }

  /** Paying by UPI without a UPI ID, when the student-loan details are not
      missing, is answered with the hook's UPI message. */
  lemma UpiMissingAnswered(rec: Submission, yearAtLoad: int, emailOk: string -> bool, storeAvailable: bool)
    requires rec.paymentMode == Some("upi") && !HasText(rec.upi)
    requires rec.studentLoan == Some("yes") ==> HasText(rec.loanBank) && HasAmount(rec.loanAmount) && HasYear(rec.loanYear)
    ensures Respond(rec, yearAtLoad, emailOk, storeAvailable).0 == Reply(400, UpiMissing)
  {
    UpiMissingReportedFirst(rec, yearAtLoad, emailOk);
    RejectionMessage(rec, yearAtLoad, emailOk, storeAvailable);
    UpiMissingUnescaped();
  }

  /** A loan year one past the year the schema was built, on a "yes"
      document that would otherwise be accepted, is answered with the
      future-year message. */
  lemma FutureLoanYearAnswered(rec: Submission, yearAtLoad: int, emailOk: string -> bool, storeAvailable: bool)
    requires rec.studentLoan == Some("yes") && rec.loanYear == Some(yearAtLoad + 1)
    requires Accepted(rec.(loanYear := Some(yearAtLoad)), yearAtLoad, emailOk)
    ensures Respond(rec, yearAtLoad, emailOk, storeAvailable).0 == Reply(400, LoanYearInFuture)
  {
    FutureLoanYearReported(rec, yearAtLoad, emailOk);
    RejectionMessage(rec, yearAtLoad, emailOk, storeAvailable);
    LoanYearInFutureUnescaped();
  }

  // --------------------------------------------------- a stored example

  /** A minimal complete submission: no student loan, paid in cash, the
      terms accepted. */
  const ExampleBody: Body := map[
    "name" := "Asha", "email" := "asha@bank.in", "phone" := "9876543210", "bank" := "SBI",
    "student-loan" := "no", "loanType" := "home", "paymentMode" := "cash", "declare" := "on"]

  const ExampleData := FormData(
    Some("Asha"), Some("asha@bank.in"), Some("9876543210"), None, None, Some("SBI"),
    Some("no"), None, Undefined, Undefined, Some("home"), Some("cash"), None, JsString("on"))

  const ExampleRecord := Submission(
    Some("Asha"), Some("asha@bank.in"), Some("9876543210"), None, None, Some("SBI"),
    Some("no"), None, None, None, Some("home"), Some("cash"), None, true)

  lemma ExampleBodyData()
    ensures MapRequest(ExampleBody) == ExampleData
  {
    assert !SaysYes(ExampleBody);
    assert "address" !in ExampleBody && "emi" !in ExampleBody && "upi" !in ExampleBody;
  }

  /** The example's text values carry no surrounding whitespace and no
      capitals, so building the document keeps them. */
  lemma ExampleDataRecord()
    ensures New(ExampleData) == ExampleRecord
  {
    ExampleDataText();
    ExampleDataAbsent();
    var r := New(ExampleData);
    assert r.phone == Some("9876543210") && r.bank == Some("SBI") && r.studentLoan == Some("no");
    assert r.loanType == Some("home") && r.paymentMode == Some("cash");
  }

  lemma ExampleDataText()
    ensures New(ExampleData).name == Some("Asha") && New(ExampleData).email == Some("asha@bank.in")
  {
    ExampleTextPlain();
    NewKeepsPlainText(ExampleData);
  }

  lemma ExampleDataAbsent()
    ensures var r := New(ExampleData);
      r.address == None && r.emi == None && r.loanBank == None && r.upi == None &&
      r.loanAmount == None && r.loanYear == None && r.declare
  {
  }

  lemma ExampleTextPlain()
    ensures Unpadded("Asha") && Unpadded("asha@bank.in")
    ensures NoCapitals("asha@bank.in")
  {
  }

  lemma ExampleRecordAccepted(yearAtLoad: int, emailOk: string -> bool)
    requires emailOk("asha@bank.in")
    ensures Accepted(ExampleRecord, yearAtLoad, emailOk)
  {
    assert PhoneSpec("9876543210");
    assert "SBI" == Banks[0] && "no" == StudentLoanAnswers[1];
    assert "home" == LoanTypes[0] && "cash" == PaymentModes[0];
    assert forall f :: FieldOk(f, ExampleRecord, yearAtLoad, emailOk);
  }

  /** The handler's success path: a minimal complete body, with the email
      pattern matching and storage available, is stored as built and
      answered with the confirmation. */
  lemma ExampleBodyStored(yearAtLoad: int, emailOk: string -> bool)
    requires emailOk("asha@bank.in")
    ensures HandlePost(ExampleBody, yearAtLoad, emailOk, true) == (Reply(200, SuccessMessage), Some(ExampleRecord))
  {
    ExampleBodyData();
    ExampleDataRecord();
    ExampleRecordAccepted(yearAtLoad, emailOk);
  }

  /** Nothing about a student loan is stored unless the body answers
      "yes". */
  lemma NoLoanFieldsStoredUnlessYes(body: Body, yearAtLoad: int, emailOk: string -> bool, storeAvailable: bool)
    requires !SaysYes(body)
    ensures var stored := HandlePost(body, yearAtLoad, emailOk, storeAvailable).1;
      stored.Some? ==> stored.value.loanBank.None? && stored.value.loanAmount.None? && stored.value.loanYear.None?
  {
  }

  /** When the answer is not "yes", the record carries no loan details and
      validation reports nothing about them. */
  lemma NoLoanErrorsForOtherAnswers(body: Body, yearAtLoad: int, emailOk: string -> bool)
    requires !SaysYes(body)
    ensures var errs := Validate(New(MapRequest(body)), yearAtLoad, emailOk);
      !Mentions(errs, LoanBank) && !Mentions(errs, LoanAmount) && !Mentions(errs, LoanYear)
  {
    var rec := New(MapRequest(body));
    assert rec.studentLoan != Some("yes");
    NoLoanErrorsUnlessYes(rec, yearAtLoad, emailOk);
  }

  /** As written, the server answers a form without the declaration exactly
      as it answers the same form with it ticked, and stores it with the
      terms declined (see "Findings" in the README). */
  lemma UntickedStoredAsWritten(body: Body, yearAtLoad: int, emailOk: string -> bool, storeAvailable: bool)
    ensures var on := HandlePost(body["declare" := "on"], yearAtLoad, emailOk, storeAvailable);
      var off := HandlePost(body - {"declare"}, yearAtLoad, emailOk, storeAvailable);
      && off.0 == on.0
      && (off.1.Some? <==> on.1.Some?)
      && (off.1.Some? ==> !off.1.value.declare && off.1.value == on.1.value.(declare := false))
  {
    MapRequestWithoutDeclare(body);
    RespondIgnoresDeclare(New(MapRequest(body["declare" := "on"])), yearAtLoad, emailOk, storeAvailable);
  }

  /** Without the declaration the handler builds the same object, with
      `declare` undefined. */
  lemma MapRequestWithoutDeclare(body: Body)
    ensures MapRequest(body - {"declare"}) == MapRequest(body["declare" := "on"]).(declare := Undefined)
  {
    var bOn, bOff := body["declare" := "on"], body - {"declare"};
    assert SaysYes(bOff) == SaysYes(bOn);
    forall k | k in MappedKeys - {"declare"} ensures Lookup(bOff, k) == Lookup(bOn, k) { }
    assert Lookup(bOff, "declare").None?;
  }

  /** The reply to a record does not depend on its declaration; only the
      stored copy carries it. */
  lemma RespondIgnoresDeclare(rec: Submission, yearAtLoad: int, emailOk: string -> bool, storeAvailable: bool)
    ensures var on := Respond(rec, yearAtLoad, emailOk, storeAvailable);
      var off := Respond(rec.(declare := false), yearAtLoad, emailOk, storeAvailable);
      && off.0 == on.0
      && (off.1.Some? <==> on.1.Some?)
      && (off.1.Some? ==> off.1.value == rec.(declare := false) && on.1.value == rec)
  {
    SaveIgnoresDeclare(rec, yearAtLoad, emailOk, storeAvailable);
  }

  /** Saving a record without the declaration fails the same way, or stores
      it the same way. */
  lemma SaveIgnoresDeclare(rec: Submission, yearAtLoad: int, emailOk: string -> bool, storeAvailable: bool)
    ensures var on := Save(rec, yearAtLoad, emailOk, storeAvailable);
      var off := Save(rec.(declare := false), yearAtLoad, emailOk, storeAvailable);
      && (on.Stored? <==> off.Stored?)
      && (off.Stored? ==> off.rec == rec.(declare := false))
      && (off.Failed? ==> off == on)
  {
    DeclareOffPassesAsWritten(rec, yearAtLoad, emailOk);
  }
}

=== FILE: jsvalues.dfy ===
/** The JavaScript values that reach the record's setters, and the two
    number parsers the handler and the setters apply to them. */
module JsValues {
  import opened Wrappers
  import opened Numbers

  /** A primitive JavaScript value. Numbers are exact rationals; `JsNaN` is NaN. */
  datatype JsValue = Undefined | JsString(s: string) | JsBool(b: bool) | JsNumber(x: real) | JsNaN

  /** `req.body[key]` for a key that may be missing from an url-encoded body. */
  function FromField(field: Option<string>): (v: JsValue)
    ensures v.Undefined? <==> field.None?
    ensures field.Some? ==> v == JsString(field.value)
  {
    match field
    case None => Undefined
    case Some(s) => JsString(s)
  }

  /** The number of `x` rounded toward zero, as `parseInt(String(x))` gives it. */
  function TruncateTowardZero(x: real): (n: int)
    ensures x >= 0.0 ==> n as real <= x < n as real + 1.0
    ensures x < 0.0 ==> n as real - 1.0 < x <= n as real
  {
    if x >= 0.0 then x.Floor else -((-x).Floor)
  }

  /** `parseFloat(v)`: a number or NaN; numbers pass through unchanged. */
  function ParseFloat(v: JsValue): (r: JsValue)
    ensures r.JsNumber? || r.JsNaN?
    ensures v.JsNumber? ==> r == v
    ensures v.JsString? ==> (r.JsNumber? <==> ParseDecimal(v.s).Some?)
    ensures v.JsString? && r.JsNumber? ==> r.x == ParseDecimal(v.s).value
    ensures (v.Undefined? || v.JsBool? || v.JsNaN?) ==> r.JsNaN?
  {
    match v
    case JsNumber(x) => v
    case JsString(s) =>
      (match ParseDecimal(s) case Some(x) => JsNumber(x) case None => JsNaN)
    case _ => JsNaN
  }

  /** `parseInt(v)`: an integral number or NaN. */
  function ParseInt(v: JsValue): (r: JsValue)
    ensures r.JsNumber? || r.JsNaN?
    ensures r.JsNumber? ==> r.x == r.x.Floor as real
    ensures v.JsNumber? && v.x == v.x.Floor as real ==> r == v
    ensures v.JsString? ==> (r.JsNumber? <==> ParseIntText(v.s).Some?)
    ensures v.JsString? && r.JsNumber? ==> r.x == ParseIntText(v.s).value as real
    ensures (v.Undefined? || v.JsBool? || v.JsNaN?) ==> r.JsNaN?
  {
    match v
    case JsNumber(x) => JsNumber(TruncateTowardZero(x) as real)
    case JsString(s) =>
      (match ParseIntText(s) case Some(n) => JsNumber(n as real) case None => JsNaN)
    case _ => JsNaN
  }
}

=== FILE: numbers.dfy ===
/** Decimal text and the numbers it denotes, restricted to well-formed input:
    an optional `-`, ASCII digits and, for `parseFloat`, one decimal point
    followed by more digits. */
module Numbers {
  import opened Wrappers
  import opened Text

  function DigitValue(c: char): (d: nat)
    requires IsDigit(c)
    ensures d < 10
  {
    c as int - '0' as int
  }

  function DigitChar(d: nat): (c: char)
    requires d < 10
    ensures IsDigit(c) && DigitValue(c) == d
  {
    ('0' as int + d) as char
  }

  /** The value of a run of ASCII digits, most significant first. */
  function DigitsValue(s: string): nat
    requires AllDigits(s)
  {
    if |s| == 0 then 0 else DigitsValue(s[..|s| - 1]) * 10 + DigitValue(s[|s| - 1])
  }

  function Pow10(k: nat): (p: nat)
    ensures p >= 1
  {
    if k == 0 then 1 else 10 * Pow10(k - 1)
  }

  /** The decimal text of a natural number, without leading zeros. */
  function NatText(n: nat): (r: string)
    ensures |r| > 0 && AllDigits(r)
    ensures n > 0 ==> r[0] != '0'
  {
    if n < 10 then [DigitChar(n)] else NatText(n / 10) + [DigitChar(n % 10)]
  }

  /** The decimal text of an integer, as `String(n)` renders it. */
  function IntText(n: int): (r: string)
    ensures |r| > 0
  {
    if n < 0 then "-" + NatText(-n) else NatText(n)
  }

  /** An optional minus sign followed by one or more ASCII digits. */
  predicate IsIntegerLiteral(s: string) {
    if |s| > 0 && s[0] == '-' then |s| > 1 && AllDigits(s[1..]) else |s| > 0 && AllDigits(s)
  }

  /** `parseInt(s, 10)` on well-formed integer text; `None` stands for NaN. */
  function ParseIntText(s: string): (r: Option<int>)
    ensures r.Some? <==> IsIntegerLiteral(s)
    ensures r.Some? && s[0] != '-' ==> r.value >= 0
  {
    if |s| > 0 && s[0] == '-' then
      (if |s| > 1 && AllDigits(s[1..]) then Some(-(DigitsValue(s[1..]) as int)) else None)
    else if |s| > 0 && AllDigits(s) then Some(DigitsValue(s))
    else None
  }

  /** Reading back the text of a natural number gives the number. */
  lemma {:induction false} NatTextValue(n: nat)
    ensures DigitsValue(NatText(n)) == n
  {
    if n >= 10 {
      var t := NatText(n / 10);
      var r := t + [DigitChar(n % 10)];
      assert r[..|r| - 1] == t;
      NatTextValue(n / 10);
    }
  }

  /** `parseInt(String(n))` is `n`. */
  lemma IntTextRoundTrip(n: int)
    ensures ParseIntText(IntText(n)) == Some(n)
  {
    if n < 0 {
      NegativeTextRoundTrip(n);
    } else {
      NatTextValue(n);
      assert ParseIntText(NatText(n)) == Some(DigitsValue(NatText(n)));
    }
  }

  /** The negative half of `IntTextRoundTrip`. */
  lemma NegativeTextRoundTrip(n: int)
    requires n < 0
    ensures ParseIntText("-" + NatText(-n)) == Some(n)
  {
    var t := NatText(-n);
    var s := "-" + t;
    assert s[0] == '-' && s[1..] == t;
    NatTextValue(-n);
  }

  /** Index of the first occurrence of `c` in `s`. */
  function IndexOf(s: string, c: char): (r: Option<nat>)
    ensures r.Some? ==> r.value < |s| && s[r.value] == c
    ensures r.Some? ==> forall i :: 0 <= i < r.value ==> s[i] != c
    ensures r.None? ==> forall i :: 0 <= i < |s| ==> s[i] != c
  {
    if |s| == 0 then None
    else if s[0] == c then Some(0)
    else match IndexOf(s[1..], c)
      case Some(k) => Some(k + 1)
      case None => None
  }

  /** Digits, optionally followed by a point and one or more digits. */
  function ParseUnsignedDecimal(s: string): (r: Option<real>)
    ensures r.Some? ==> r.value >= 0.0
    ensures |s| > 0 && AllDigits(s) ==> r == Some(DigitsValue(s) as real)
    ensures r.Some? ==> |s| > 0
  {
    match IndexOf(s, '.')
    case None =>
      if |s| > 0 && AllDigits(s) then Some(DigitsValue(s) as real) else None
    case Some(k) =>
      if 0 < k && k + 1 < |s| && AllDigits(s[..k]) && AllDigits(s[k + 1..]) then
        Some(DigitsValue(s[..k]) as real + (DigitsValue(s[k + 1..]) as real) / (Pow10(|s| - k - 1) as real))
      else None
  }

  /** `parseFloat(s)` on well-formed decimal text; `None` stands for NaN.
      On integer text it agrees with `parseInt`. */
  function ParseDecimal(s: string): (r: Option<real>)
    ensures r.Some? ==> |s| > 0
    ensures IsIntegerLiteral(s) ==> r.Some? && r.value == ParseIntText(s).value as real
    ensures r.Some? && s[0] != '-' ==> r.value >= 0.0
  {
    if |s| > 0 && s[0] == '-' then
      match ParseUnsignedDecimal(s[1..])
      case Some(x) => Some(-x)
      case None => None
    else ParseUnsignedDecimal(s)
  }
}

=== FILE: patterns.dfy ===
/** The two regular expressions the form rules share: the Indian mobile
    number `/^[6-9]\d{9}$/` and the UPI ID `/^[a-zA-Z0-9._-]+@[a-zA-Z0-9]+$/`.
    Each is given twice: as the automaton a regular-expression engine runs
    over the string one character at a time, and as the language it denotes;
    the lemmas show the two agree on every string. */
module Patterns {
  import opened Text

  // ---------------------------------------------------------------- phone

  /** The language of `/^[6-9]\d{9}$/`: ten characters, the first in 6..9,
      the rest ASCII digits. */
  predicate PhoneSpec(s: string) {
    && |s| == 10
    && '6' <= s[0] <= '9'
    && forall i :: 1 <= i < |s| ==> IsDigit(s[i])
  }

  /** Phone automaton after `k` characters have been accepted. */
  function PhoneFrom(k: nat, s: string): bool
    requires k <= 10
    decreases |s|
  {
    if |s| == 0 then k == 10
    else if k == 10 then false
    else if k == 0 then '6' <= s[0] <= '9' && PhoneFrom(1, s[1..])
    else IsDigit(s[0]) && PhoneFrom(k + 1, s[1..])
  }

  /** `/^[6-9]\d{9}$/.test(s)`. */
  function PhoneMatch(s: string): bool {
    PhoneFrom(0, s)
  }

  /** After the first character, the automaton accepts exactly the digit
      strings that complete ten characters. */
  lemma {:induction false} PhoneFromDigits(k: nat, s: string)
    requires 1 <= k <= 10
    ensures PhoneFrom(k, s) <==> |s| == 10 - k && AllDigits(s)
    decreases |s|
  {
    if |s| > 0 && k < 10 {
      PhoneFromDigits(k + 1, s[1..]);
      if AllDigits(s) {
        assert forall i :: 0 <= i < |s[1..]| ==> s[1..][i] == s[i + 1];
      }
      if IsDigit(s[0]) && AllDigits(s[1..]) {
        assert forall i :: 1 <= i < |s| ==> s[i] == s[1..][i - 1];
      }
    }
  }

  /** The automaton recognises exactly the phone language. */
  lemma PhoneMatchSpec(s: string)
    ensures PhoneMatch(s) <==> PhoneSpec(s)
  {
    if |s| > 0 {
      PhoneFromDigits(1, s[1..]);
      assert forall i :: 1 <= i < |s| ==> s[i] == s[1..][i - 1];
    }
  }

  /** An accepted phone has no whitespace to trim. */
  lemma PhoneSpecUnpadded(s: string)
    requires PhoneSpec(s)
    ensures Unpadded(s) && Trim(s) == s
  {
    assert IsDigit(s[9]);
    TrimUnpadded(s);
  }

  // ------------------------------------------------------------------ UPI

  /** The class `[a-zA-Z0-9._-]` of the part before the `@`. */
  predicate IsLocalChar(c: char) {
    IsAlnum(c) || c == '.' || c == '_' || c == '-'
  }

  predicate AllAlnum(s: string) {
    forall i :: 0 <= i < |s| ==> IsAlnum(s[i])
  }

  /** `s` is a (possibly empty) run of local characters, an `@` at position
      `k`, and a non-empty alphanumeric run. */
  predicate UpiTail(s: string, k: int) {
    && 0 <= k < |s| - 1
    && s[k] == '@'
    && (forall i :: 0 <= i < k ==> IsLocalChar(s[i]))
    && (forall i :: k < i < |s| ==> IsAlnum(s[i]))
  }

  /** The language of the UPI pattern: a non-empty run of local characters,
      one `@`, a non-empty alphanumeric run. */
  predicate UpiSpec(s: string) {
    exists k :: 0 < k < |s| - 1 && UpiTail(s, k)
  }

  datatype UpiState = BeforeLocal | InLocal | AfterAt | InProvider

  /** UPI automaton in state `q`. Since `@` is not a local character, the
      first `@` necessarily ends the local part. */
  function UpiFrom(q: UpiState, s: string): bool
    decreases |s|
  {
    if |s| == 0 then q == InProvider
    else match q
      case BeforeLocal => IsLocalChar(s[0]) && UpiFrom(InLocal, s[1..])
      case InLocal =>
        if s[0] == '@' then UpiFrom(AfterAt, s[1..])
        else IsLocalChar(s[0]) && UpiFrom(InLocal, s[1..])
      case AfterAt => IsAlnum(s[0]) && UpiFrom(InProvider, s[1..])
      case InProvider => IsAlnum(s[0]) && UpiFrom(InProvider, s[1..])
  }

  /** `/^[a-zA-Z0-9._-]+@[a-zA-Z0-9]+$/.test(s)`. */
  function UpiMatch(s: string): bool {
    UpiFrom(BeforeLocal, s)
  }

  lemma {:induction false} UpiProviderAlnum(s: string)
    ensures UpiFrom(InProvider, s) <==> AllAlnum(s)
    decreases |s|
  {
    if |s| > 0 {
      UpiProviderAlnum(s[1..]);
      assert forall i :: 1 <= i < |s| ==> s[i] == s[1..][i - 1];
      assert forall i :: 0 <= i < |s| - 1 ==> s[1..][i] == s[i + 1];
    }
  }

  /** Inside the local part, the automaton accepts exactly the strings that
      some `@` splits into local characters and a non-empty alphanumeric run. */
  lemma {:induction false} UpiLocalTail(s: string)
    ensures UpiFrom(InLocal, s) <==> exists k :: 0 <= k < |s| - 1 && UpiTail(s, k)
    decreases |s|
  {
    if |s| < 2 {
    } else if s[0] == '@' {
      UpiProviderAlnum(s[2..]);
      assert s[1..][1..] == s[2..];
      if UpiFrom(InLocal, s) {
        assert UpiFrom(AfterAt, s[1..]);
        assert IsAlnum(s[1..][0]) && UpiFrom(InProvider, s[2..]);
        assert AllAlnum(s[2..]);
        forall i | 0 < i < |s| ensures IsAlnum(s[i]) {
          if i > 1 { assert s[i] == s[2..][i - 2]; } else { assert s[1..][0] == s[1]; }
        }
        assert UpiTail(s, 0);
      }
      if exists k :: 0 <= k < |s| - 1 && UpiTail(s, k) {
        var k :| 0 <= k < |s| - 1 && UpiTail(s, k);
        assert k == 0 by { assert !IsLocalChar(s[0]); }
        forall i | 0 <= i < |s[2..]| ensures IsAlnum(s[2..][i]) {
          assert s[2..][i] == s[i + 2];
        }
        assert UpiFrom(AfterAt, s[1..]);
      }
    } else {
      var rest := s[1..];
      UpiLocalTail(rest);
      if UpiFrom(InLocal, s) {
        var k :| 0 <= k < |rest| - 1 && UpiTail(rest, k);
        forall i | 0 <= i < k + 1 ensures IsLocalChar(s[i]) {
          if i >= 1 { assert s[i] == rest[i - 1]; }
        }
        forall i | k + 1 < i < |s| ensures IsAlnum(s[i]) {
          assert s[i] == rest[i - 1];
        }
        assert UpiTail(s, k + 1);
      }
      if exists k :: 0 <= k < |s| - 1 && UpiTail(s, k) {
        var k :| 0 <= k < |s| - 1 && UpiTail(s, k);
        assert k >= 1;
        assert IsLocalChar(s[0]);
        forall i | 0 <= i < k - 1 ensures IsLocalChar(rest[i]) {
          assert rest[i] == s[i + 1];
        }
        forall i | k - 1 < i < |rest| ensures IsAlnum(rest[i]) {
          assert rest[i] == s[i + 1];
        }
        assert UpiTail(rest, k - 1);
      }
    }
  }

  /** The automaton recognises exactly the UPI language. */
  lemma UpiMatchSpec(s: string)
    ensures UpiMatch(s) <==> UpiSpec(s)
  {
    if |s| > 0 {
      var rest := s[1..];
      UpiLocalTail(rest);
      if UpiMatch(s) {
        var k :| 0 <= k < |rest| - 1 && UpiTail(rest, k);
        forall i | 0 <= i < k + 1 ensures IsLocalChar(s[i]) {
          if i >= 1 { assert s[i] == rest[i - 1]; }
        }
        forall i | k + 1 < i < |s| ensures IsAlnum(s[i]) {
          assert s[i] == rest[i - 1];
        }
        assert UpiTail(s, k + 1);
      }
      if UpiSpec(s) {
        var k :| 0 < k < |s| - 1 && UpiTail(s, k);
        assert IsLocalChar(s[0]);
        forall i | 0 <= i < k - 1 ensures IsLocalChar(rest[i]) {
          assert rest[i] == s[i + 1];
        }
        forall i | k - 1 < i < |rest| ensures IsAlnum(rest[i]) {
          assert rest[i] == s[i + 1];
        }
        assert UpiTail(rest, k - 1);
      }
    }
  }

  /** An accepted UPI ID contains exactly one `@`. */
  lemma UpiSingleAt(s: string)
    requires UpiSpec(s)
    ensures multiset(s)['@'] == 1
  {
    var k :| 0 < k < |s| - 1 && UpiTail(s, k);
    var pre, post := s[..k], s[k + 1..];
    assert s == pre + [s[k]] + post;
    assert '@' !in multiset(pre) by {
      forall i | 0 <= i < |pre| ensures pre[i] != '@' { assert IsLocalChar(s[i]); }
    }
    assert '@' !in multiset(post) by {
      forall i | 0 <= i < |post| ensures post[i] != '@' { assert post[i] == s[k + 1 + i] && IsAlnum(s[k + 1 + i]); }
    }
    assert multiset(s) == multiset(pre) + multiset([s[k]]) + multiset(post);
  }

  /** An accepted UPI ID has no whitespace to trim. */
  lemma UpiSpecUnpadded(s: string)
    requires UpiSpec(s)
    ensures Unpadded(s)
  {
    var k :| 0 < k < |s| - 1 && UpiTail(s, k);
    assert IsLocalChar(s[0]) && IsAlnum(s[|s| - 1]);
  }
}

=== FILE: text.dfy ===
/** The character classes and string operations of JavaScript that the form
    rules rely on: regular-expression classes, `String.prototype.trim`,
    lower-casing and the UTF-16 `length` that `maxlength` measures. */
module Text {

  /** `\d` in a JavaScript regular expression without the `u` flag: ASCII only. */
  predicate IsDigit(c: char) {
    '0' <= c <= '9'
  }

  predicate IsAsciiLetter(c: char) {
    'a' <= c <= 'z' || 'A' <= c <= 'Z'
  }

  /** The class `[a-zA-Z0-9]`. */
  predicate IsAlnum(c: char) {
    IsDigit(c) || IsAsciiLetter(c)
  }

  predicate AllDigits(s: string) {
    forall i :: 0 <= i < |s| ==> IsDigit(s[i])
  }

  /** ECMAScript WhiteSpace and LineTerminator: what `trim` strips. */
  predicate IsJsSpace(c: char) {
    var n := c as int;
    || n == 0x09 || n == 0x0A || n == 0x0B || n == 0x0C || n == 0x0D || n == 0x20
    || n == 0xA0 || n == 0x1680 || 0x2000 <= n <= 0x200A
    || n == 0x2028 || n == 0x2029 || n == 0x202F || n == 0x205F || n == 0x3000
    || n == 0xFEFF
  }

  /** The characters that may not appear raw inside a JavaScript string literal. */
  predicate IsLineTerminator(c: char) {
    c == '\n' || c == '\r' || c as int == 0x2028 || c as int == 0x2029
  }

  predicate AllSpace(s: string) {
    forall i :: 0 <= i < |s| ==> IsJsSpace(s[i])
  }

  /** True when `s` neither starts nor ends with whitespace. */
  predicate Unpadded(s: string) {
    s == [] || (!IsJsSpace(s[0]) && !IsJsSpace(s[|s| - 1]))
  }

  /** `s` with its leading whitespace removed: a suffix of `s`. */
  function TrimStart(s: string): (r: string)
    ensures |r| <= |s| && r == s[|s| - |r|..]
    ensures AllSpace(s[..|s| - |r|])
    ensures r == [] || !IsJsSpace(r[0])
  {
    if |s| > 0 && IsJsSpace(s[0]) then
      var r := TrimStart(s[1..]);
      TrimStartStep(s, r);
      r
    else s
  }

  /** One leading space in front of a trimmed suffix keeps it a suffix with
      only whitespace in front. */
  lemma TrimStartStep(s: string, r: string)
    requires |s| > 0 && IsJsSpace(s[0])
    requires |r| <= |s| - 1 && r == s[1..][|s| - 1 - |r|..]
    requires AllSpace(s[1..][..|s| - 1 - |r|])
    ensures r == s[|s| - |r|..]
    ensures AllSpace(s[..|s| - |r|])
  {
    forall i | 0 <= i < |s| - |r| ensures IsJsSpace(s[i]) {
      if i > 0 { assert s[i] == s[1..][..|s| - 1 - |r|][i - 1]; }
    }
  }

  /** `s` with its trailing whitespace removed: a prefix of `s`. */
  function TrimEnd(s: string): (r: string)
    ensures |r| <= |s| && r == s[..|r|]
    ensures AllSpace(s[|r|..])
    ensures r == [] || !IsJsSpace(r[|r| - 1])
  {
    if |s| > 0 && IsJsSpace(s[|s| - 1]) then
      var r := TrimEnd(s[..|s| - 1]);
      TrimEndStep(s, r);
      r
    else s
  }

  /** One trailing space after a trimmed prefix keeps it a prefix with only
      whitespace behind. */
  lemma TrimEndStep(s: string, r: string)
    requires |s| > 0 && IsJsSpace(s[|s| - 1])
    requires |r| <= |s| - 1 && r == s[..|s| - 1][..|r|]
    requires AllSpace(s[..|s| - 1][|r|..])
    ensures r == s[..|r|]
    ensures AllSpace(s[|r|..])
  {
    var p := s[..|s| - 1];
    forall i | |r| <= i < |s| ensures IsJsSpace(s[i]) {
      if i < |s| - 1 { assert s[i] == p[|r|..][i - |r|]; }
    }
  }

  /** Number of leading whitespace characters of `s`. */
  function LeadingSpace(s: string): nat {
    |s| - |TrimStart(s)|
  }

  /** `String.prototype.trim`: the slice of `s` left after stripping
      whitespace at both ends; only whitespace is removed. */
  function Trim(s: string): (r: string)
    ensures LeadingSpace(s) + |r| <= |s|
    ensures r == s[LeadingSpace(s)..LeadingSpace(s) + |r|]
    ensures AllSpace(s[..LeadingSpace(s)]) && AllSpace(s[LeadingSpace(s) + |r|..])
    ensures Unpadded(r)
  {
    var t := TrimStart(s);
    var r := TrimEnd(t);
    TrimSlices(s, t, r, LeadingSpace(s));
    r
  }

  /** A prefix `r` of a suffix `t` of `s`, with whitespace on both sides cut off,
      is a middle slice of `s`, starting at `k`, padded only by whitespace. */
  lemma TrimSlices(s: string, t: string, r: string, k: nat)
    requires |t| <= |s| && k == |s| - |t| && t == s[k..] && AllSpace(s[..k])
    requires t == [] || !IsJsSpace(t[0])
    requires |r| <= |t| && r == t[..|r|] && AllSpace(t[|r|..])
    requires r == [] || !IsJsSpace(r[|r| - 1])
    ensures k + |r| <= |s|
    ensures r == s[k..k + |r|]
    ensures AllSpace(s[..k]) && AllSpace(s[k + |r|..])
    ensures Unpadded(r)
  {
    assert s[k + |r|..] == t[|r|..];
    assert r != [] ==> r[0] == t[0];
  }

  /** A string with no whitespace at either end is its own trim. */
  lemma TrimUnpadded(s: string)
    requires Unpadded(s)
    ensures Trim(s) == s
  {
  }

  /** Trimming twice is trimming once. */
  lemma TrimIdempotent(s: string)
    ensures Trim(Trim(s)) == Trim(s)
  {
    TrimUnpadded(Trim(s));
  }

  /** Leading whitespace in front of `x` is stripped with the rest. */
  lemma {:induction false} TrimStartSkips(pre: string, x: string)
    requires AllSpace(pre)
    ensures TrimStart(pre + x) == TrimStart(x)
  {
    if pre == [] {
      assert pre + x == x;
    } else {
      var s := pre + x;
      assert s[0] == pre[0];
      assert s[1..] == pre[1..] + x;
      TrimStartSkips(pre[1..], x);
      calc {
        TrimStart(s);
        TrimStart(s[1..]);
        TrimStart(x);
      }
    }
  }

  /** Trailing whitespace after `x` is stripped with the rest. */
  lemma {:induction false} TrimEndSkips(x: string, post: string)
    requires AllSpace(post)
    ensures TrimEnd(x + post) == TrimEnd(x)
  {
    if post == [] {
      assert x + post == x;
    } else {
      var s := x + post;
      var p := post[..|post| - 1];
      assert s[|s| - 1] == post[|post| - 1];
      assert s[..|s| - 1] == x + p;
      assert AllSpace(p) by { forall i | 0 <= i < |p| ensures IsJsSpace(p[i]) { assert p[i] == post[i]; } }
      TrimEndSkips(x, p);
      calc {
        TrimEnd(s);
        TrimEnd(s[..|s| - 1]);
        TrimEnd(x);
      }
    }
  }

  /** Once a non-space character is reached, what follows is kept whole. */
  lemma {:induction false} TrimStartAppend(x: string, y: string)
    requires TrimStart(x) != []
    ensures TrimStart(x + y) == TrimStart(x) + y
  {
    if IsJsSpace(x[0]) {
      assert (x + y)[1..] == x[1..] + y;
      TrimStartAppend(x[1..], y);
    }
  }

  /** Whitespace added at either end does not change the trimmed string. */
  lemma TrimPadding(pre: string, s: string, post: string)
    requires AllSpace(pre) && AllSpace(post)
    ensures Trim(pre + s + post) == Trim(s)
  {
    assert pre + s + post == pre + (s + post);
    TrimStartSkips(pre, s + post);
    if TrimStart(s) != [] {
      TrimStartAppend(s, post);
      TrimEndSkips(TrimStart(s), post);
    } else {
      var k := |s|;
      assert AllSpace(s[..k]);
      assert AllSpace(s + post) by {
        forall i | 0 <= i < |s + post| ensures IsJsSpace((s + post)[i]) {
          if i < |s| { assert s[i] == s[..k][i]; }
        }
      }
    }
  }

  /** A string trims to empty exactly when it is all whitespace. */
  lemma TrimEmptyIffAllSpace(s: string)
    ensures Trim(s) == [] <==> AllSpace(s)
  {
    if Trim(s) == [] {
      var k := LeadingSpace(s);
      assert k == |s| by { assert |TrimStart(s)| == 0; }
      forall i | 0 <= i < |s| ensures IsJsSpace(s[i]) {
        assert s[i] == s[..k][i];
      }
    } else {
      var k := LeadingSpace(s);
      assert s[k] == Trim(s)[0];
    }
  }

  function LowerChar(c: char): char {
    if 'A' <= c <= 'Z' then (c as int + 32) as char else c
  }

  /** No ASCII capital letter anywhere in `s`. */
  predicate NoCapitals(s: string) {
    forall i :: 0 <= i < |s| ==> !('A' <= s[i] <= 'Z')
  }

  /** Lower-casing, as far as ASCII letters go. */
  function AsciiLower(s: string): (r: string)
    ensures |r| == |s|
    ensures NoCapitals(r)
    ensures forall i :: 0 <= i < |s| && 'A' <= s[i] <= 'Z' ==> r[i] as int == s[i] as int + 32
    ensures forall i :: 0 <= i < |s| && !('A' <= s[i] <= 'Z') ==> r[i] == s[i]
  {
    seq(|s|, i requires 0 <= i < |s| => LowerChar(s[i]))
  }

  /** Text without ASCII capitals is its own lower-casing. */
  lemma AsciiLowerNoCapitals(s: string)
    requires NoCapitals(s)
    ensures AsciiLower(s) == s
  {
    var r := AsciiLower(s);
    forall i | 0 <= i < |s| ensures r[i] == s[i] { }
  }


  /** Lower-casing a lower-cased string changes nothing. */
  lemma AsciiLowerIdempotent(s: string)
    ensures AsciiLower(AsciiLower(s)) == AsciiLower(s)
  {
    var r := AsciiLower(s);
    assert forall i :: 0 <= i < |r| ==> AsciiLower(r)[i] == r[i];
  }

  /** Whitespace is not a letter, so lower-casing keeps a string unpadded. */
  lemma AsciiLowerUnpadded(s: string)
    requires Unpadded(s)
    ensures Unpadded(AsciiLower(s))
  {
  }

  /** The JavaScript `length` of `s`: characters outside the Basic
      Multilingual Plane take two UTF-16 code units. */
  function Utf16Length(s: string): (n: nat)
    ensures |s| <= n <= 2 * |s|
    ensures (forall i :: 0 <= i < |s| ==> (s[i] as int) < 0x10000) ==> n == |s|
  {
    if |s| == 0 then 0
    else (if (s[|s| - 1] as int) < 0x10000 then 1 else 2) + Utf16Length(s[..|s| - 1])
  }
}

=== FILE: wrappers.dfy ===
/** Optional values. `None` stands for a property that is `undefined` in the
    JavaScript the model follows. */
module Wrappers {

  datatype Option<+T> = None | Some(value: T) {

    /** The wrapped value, or `default` when there is none. */
    function GetOr(default: T): T {
      match this
      case Some(v) => v
      case None => default
    }
  }
}
